=== FILE: README.md ===
# Ticket generator with QR code — a Dafny model

This project models the ticket-building pipeline of a small event-ticket
service. The service takes a registrant's details, gives them an
8-character ticket number that has not been issued before, encodes the
details as QR payload text, places the QR code on a template image, records
the number in a key file and, if asked, mails the ticket.

It models two programs:

- `api.py`, the HTTP service. It covers:
  - the retry-until-unused ticket-number generator;
  - the key file `ticket_keys.csv`;
  - the ordered details dictionary and the `ticket_number` merge;
  - the QR payload text;
  - QR-config defaulting;
  - placement arithmetic;
  - the output file name;
  - the lower-cased response map;
  - request validation and the e-mail decision of `/generate_ticket`.
- `main.py`, the older batch script. It uses a fixed 150 px QR code, a
  one-line payload and no uniqueness check, and writes `tickets.csv`.

Image pixels, QR symbol encoding, the network, the clock and the random
source are not modelled as computation. They become inputs:

- the template's size (`Dims`);
- whether the download succeeded (`Env.fetched`);
- what is at the local template path: nothing, something `Image.open`
  cannot read, or an image (`Env.local`);
- the size of a rotated QR image (`rotated`);
- whether Pillow or `qrcode` raises while the ticket is composed
  (`Env.imaging`): a template resize it rejects, a payload too long for
  any QR version, or a QR size it rejects;
- the outcome of the mail send (`MailOutcome`);
- the timestamp string written to the key file;
- a nondeterministic choice (`:|`) in place of `random.choices`.

Modules, one per concern:

| file | module | models |
|---|---|---|
| text.dfy | `Text` | `str.upper`/`lower` (ASCII), `strip`, `join`, `split`, `str(int)` |
| json.dfy | `Json` | `Option`, `Result`, a JSON field that is absent, `null` or present, `dict.get` with a default, truthiness |
| ticket_number.dfy | `TicketNumber` | the alphabet, the 36^8 ticket numbers, `generate_unique_ticket_number`, main.py's draw |
| key_file.dfy | `KeyFile` | `load_ticket_keys`, `save_ticket_key` over CSV rows |
| details.dfy | `Details` | the insertion-ordered `ticket_details` dict, `d[k] = v`, `d.get`, the lower-cased copy |
| payload.dfy | `Payload` | the `KEY: value` payload text |
| qr_config.dfy | `QrConfig` | the defaults merge of `qr_config` |
| placement.dfy | `Placement` | the optional resize and the paste position |
| ticket_qr.dfy | `TicketQr` | `generate_ticket_qr`: merge, payload, position, file name, key saving, response map |
| ticket_api.dfy | `TicketApi` | `/generate_ticket`: validation, issuance, e-mail gating, response |
| legacy.dfy | `Legacy` | main.py |

The random draw is modelled as choosing an index `k < 36^8`; `Encode(k, 8)`
turns it into base-36 symbols over `A–Z0–9`. `Encode` and `Decode` are
proved to be inverse bijections, so choosing an index is the same as
choosing an 8-symbol string. The source's `while True` loop ends exactly
when some well-formed number is not yet known (`HasFreeNumber`). A
pigeonhole lemma shows this holds whenever fewer than 36^8 keys are known.
When every number is taken, the model answers `None` / `NoResponse`: the
source would loop forever.

The details dict is a sequence of `Entry(key, value)` pairs with distinct
keys, in Python's insertion order. `d[k] = v` (`Put`) overwrites in place or
appends. The lower-cased response map is built the way the dict
comprehension builds it, by inserting entries one at a time. So when two
keys collide after lower-casing, the result keeps the first key's position
and the last key's value.

Facts about api.py that the model keeps:

- `use_image_url` alone picks the template source. The other source is
  never consulted.
- A failed download gets HTTP 400, and so does a local path that does not
  exist. A path that exists but is not a readable image makes `Image.open`
  raise, which gives HTTP 500.
- `generate_unique_ticket_number` retries without any limit.
- A `mail_credentials` value that is `null` or not an object makes
  `.get` raise, which gives HTTP 500. This happens after the ticket image
  and its key have been saved, so the number stays recorded.

Observations from the proofs (not claimed as defects):

- A caller detail key that lower-cases to `ticket_number` has two
  effects. It adds a second `TICKET_NUMBER:` line to the QR payload
  (`TicketQr.AliasDuplicatesPayloadLine`). It can also replace the
  generated number in the response's `qr_data`
  (`TicketQr.AliasOverridesResponse`). The top-level
  `ticket_number` field of the response is unaffected.
- main.py draws each number independently, with no uniqueness check.
  `Legacy.RunBatch` promises well-formed numbers only, not distinct ones.

## Model

| member | source | states |
|---|---|---|
| TicketNumber.AlphabetContents | api.py:43 | the alphabet is exactly `ABCDEFGHIJKLMNOPQRSTUVWXYZ0123456789`: `string.ascii_uppercase + string.digits` |
| TicketNumber.AlphabetMembership | api.py:43 | a character is a symbol of the alphabet iff it is an upper-case ASCII letter or a digit |
| TicketNumber.Encode | api.py:43 | an encoded draw has the requested length and uses only symbols of the alphabet |
| TicketNumber.DecodeEncode | api.py:43 | decoding the base-36 encoding of any index below 36^len gives the index back (different draws give different strings) |
| TicketNumber.EncodeDecode | api.py:43 | every string over the alphabet is the encoding of its decoded index, so the index choice reaches every string |
| TicketNumber.EncodingIsOnto | api.py:43 | a string is a well-formed ticket number (length 8, all symbols in A–Z0–9) iff it is `Encode(k, 8)` for some `k < 36^8` |
| TicketNumber.HasFreeNumberMeaning | api.py:42-45 | the loop's exit condition holds iff some well-formed ticket number is not among the known keys |
| TicketNumber.FreeNumberWhileNotFull | api.py:42-45 | pigeonhole: with fewer than 36^8 known keys a free number always exists, so the retry loop terminates |
| TicketNumber.EncodingsFillKeys | api.py:42-45 | if the first `count` encodings are all known keys, there are at least `count` known keys (the encodings are pairwise distinct) |
| TicketNumber.GenerateUnique | api.py:40-45 | the result has length 8, uses only A–Z and 0–9, and is not among the existing keys; no result exactly when every number is taken (the source never returns) |
| TicketNumber.Draw | main.py:9 | main.py's ticket number has length 8 and uses only A–Z and 0–9 |
| KeyFile.KeysOfMeaning | api.py:53-55 | a string is a loaded key iff some non-empty row has it as its first field |
| KeyFile.LoadKeys | api.py:50 | a missing file gives no keys |
| KeyFile.LoadKeysMeaning | api.py:47-56 | a string is a loaded key iff some non-empty row of the file has it as its first field |
| KeyFile.SaveThenLoad | api.py:47-63 | after saving `n`, loading the keys gives the previous keys plus `n` and nothing else |
| KeyFile.SaveFreshGrowsByOne | api.py:47-63 | saving a number not yet in the file grows the key set by exactly one |
| Details.Get | api.py:183-184 | `d.get(k)` is empty iff `k` is not a key, and otherwise is the value of an entry with key `k` |
| Details.GetDistinct | api.py:183-184 | in a dict, looking up an entry's key gives that entry's value |
| Details.Put | api.py:143 | `d[k] = v` keeps keys distinct; an existing `k` keeps its position and the key order is unchanged; a new `k` is appended last; every entry under another key stays where and what it was; the entry under `k` holds `v` |
| Details.PutKeys | api.py:143 | the keys after `d[k] = v` are the old keys plus `k` |
| Details.PutThenGetSame | api.py:143 | after `d[k] = v`, `k` reads back as `v` |
| Details.PutThenGetOther | api.py:143 | after `d[k] = v`, every other key reads as before |
| Details.LowerKeys | api.py:193 | the response map is a dict: its keys are distinct even when several detail keys lower-case alike |
| Details.LowerKeysKeys | api.py:193 | the response map's keys are exactly the lower-cased keys of the details |
| Details.LowerKeysPointwise | api.py:193 | when no two keys collide once lower-cased, the response map is the details with every key lower-cased, in the same order, values unchanged |
| Details.LowerKeysLastWins | api.py:193 | in general, a lower-cased key maps to the value of the last entry whose key lower-cases to it |
| Text.LowerOfUpper | api.py:146-193 | lower-casing an upper-cased key gives the same as lower-casing the key, so a payload line's `KEY` and the response map's key name the same field |
| Text.UpperKeepsSeparator | api.py:146 | upper-casing a key neither adds nor removes a newline, so it cannot split or join payload lines |
| Text.Strip | api.py:242-245 | `strip()` returns a substring with only white space around it, and the result neither starts nor ends with white space |
| Text.StripEmptyIffAllSpace | api.py:242 | `not email.strip()` holds iff the address consists of white space only |
| Text.SplitJoin | api.py:146 | splitting a newline-join recovers the parts when no part contains a newline |
| Text.JoinSplit | api.py:146 | joining the parts of a split gives the string back |
| Text.JoinEndsWithLast | api.py:146 | a join ends with its last part, so nothing trails it |
| Payload.QrPayload | api.py:146 | no details give empty text; otherwise the payload starts with the first entry's `KEY: value` line and ends with the last entry's |
| Payload.PayloadLines | api.py:146 | with single-line keys and values, the payload splits into exactly one line per details entry, in insertion order, each `KEY.upper() + ": " + str(value)` |
| Payload.PayloadNoTrailingNewline | api.py:146 | the payload does not end in a newline unless the last value does |
| QrConfig.Resolve | api.py:149-155 | the effective size, rotation and offsets are the supplied values or 150, 0, 50 and 120; a supplied offset missing `x` or `y` falls back per component |
| QrConfig.EmptyConfigIsDefault | api.py:150 | an empty `qr_config` object (falsy) yields the defaults |
| Placement.QrDims | api.py:167-171 | with rotation 0 the QR image is `size` by `size` |
| Placement.Position | api.py:174-177 | the QR's bottom-right corner lies exactly `offset_x` / `offset_y` inside the template's bottom-right corner |
| Placement.PlaceQr | api.py:136-177 | the position plus QR size plus offset equals the (possibly resized) template width and height on each axis; the QR size is `size` with rotation 0 and the rotated image's size otherwise |
| Placement.PlacementExample | api.py:174-177 | a 2000x647 template, QR size 350, offset (100, 200) gives position (1550, 97) |
| TicketQr.WithTicketNumber | api.py:141-143 | after the merge `ticket_number` reads as the generated number; a caller-supplied value is overwritten in its original position with all other entries unchanged, otherwise the key is appended last |
| TicketQr.WithTicketNumberKeepsOthers | api.py:141-143 | the merge leaves every other key reading as before |
| TicketQr.FileName | api.py:183-185 | the output name is the event (or `EVENT`), `_`, the roll number (or `UNKNOWN`), `_`, the ticket number and `.png`, each part at its place |
| TicketQr.FileNameRoundTrip | api.py:183-185 | the ticket number can be read back from the output file name |
| TicketQr.PathJoin | api.py:186 | `os.path.join` ends with the file name; an absolute name is the whole result; otherwise the folder comes first, followed by a slash when the folder is non-empty |
| TicketQr.BaseName | api.py:309 | `os.path.basename` returns the longest slash-free suffix of the path: all of it, or what follows its last slash |
| TicketQr.BaseNameOfOutputPath | api.py:186 | a slash-free file name joined under `Qr_Generated` has that file name as its base name, which the ticket URL uses |
| TicketQr.QrDataReportsTicketNumber | api.py:143-193 | unless a caller key other than `ticket_number` lower-cases to `ticket_number`, `qr_data["ticket_number"]` is the generated number |
| TicketQr.AliasOverridesResponse | api.py:143-193 | a caller key `TICKET_NUMBER` after `ticket_number` replaces the generated number in `qr_data` |
| TicketQr.AliasDuplicatesPayloadLine | api.py:143-146 | with that caller key the payload has two `TICKET_NUMBER: ` lines, the first with the generated number, the second with the caller's value |
| TicketQr.QrDataIsLowerCasedDetails | api.py:193 | without lower-case collisions, `qr_data` is the merged details with lower-cased keys, in order |
| TicketQr.ComposeTicket | api.py:132-195 | for ticket number `n`: the details are the caller's details with `n` merged in under `ticket_number`; the payload is built from them; the settings are the resolved config; the QR sits at the configured offset from the bottom-right corner, for any rotation; the output path names the file after those details; `qr_data` is those details with lower-cased keys, reporting `n` unless a caller key aliases it |
| TicketQr.GenerateTicketQr | api.py:118-195 | the issued number is well-formed and not among the existing keys; the key file gains exactly that number; the key file is untouched when no number can be found |
| TicketApi.Validate | api.py:241-262 | validation passes iff the e-mail has a non-blank character and the selected template is named and readable; the e-mail is checked first (400, or 500 for a `null` address); a missing URL or path gets its own 400; a failed download and a missing local file each get their own 400; a local path that exists but cannot be read as an image gives 500 |
| TicketApi.CredentialsFallback | api.py:283-285 | a credential key the request supplies is used as given (even empty); a missing key or missing `mail_credentials` falls back to the default |
| TicketApi.MailAttempted | api.py:283-290 | a send is attempted iff `send_email` is truthy and both the user and the password are non-empty, each taken from `mail_credentials` when it has the key (even as empty or `null`) and from the default otherwise |
| TicketApi.SendStatus | api.py:109-116 | the status is never `Not sent`; it names the recipient after `Email sent to ` on delivery or `Failed to send email to ` on failure, and ends with the attachment path or the error text |
| TicketApi.EmailStatus | api.py:288-306 | the status is `Not sent` exactly when no send is attempted, and otherwise is the mailer's own report for this recipient and attachment |
| TicketApi.TicketUrl | api.py:309 | the URL is the service root and `/generated/` followed by the output path's base name: the longest slash-free tail of the path |
| TicketApi.IssuedReply | api.py:274-318 | the 200 body for number `n`: `n` itself, the stripped e-mail, the lower-cased details (reporting `n` unless a caller key aliases it), the URL of the output file, and `Not sent` when no send is attempted or else the mailer's report for this recipient and file |
| TicketApi.Respond | api.py:239-318 | a validation error, an imaging failure or an endless draw leaves the key file untouched; a template resize failure or a QR failure gives 500; a 200 reply comes iff validation passes, a number is drawn, the imaging succeeds and `mail_credentials` is an object, and it is then `IssuedReply` for the drawn number and the validated template; once the ticket is rendered the key file gains exactly the number, even when a non-object `mail_credentials` then gives 500 |
| TicketApi.RespondIssued | api.py:239-318 | a 200 reply of the handler carries the drawn number, the stripped e-mail, the lower-cased details (reporting the number unless a caller key aliases it), the download URL of the output file, and `Not sent` or the mailer's report |
| TicketApi.MailFailureKeepsTicket | api.py:295-318 | a failed send changes only the status text: the reply is still 200 with the same ticket number, `qr_data`, URL and e-mail, and the same key file |
| TicketApi.GenerateTicket | api.py:239-318 | validation failures return their error with the key file unchanged and no number drawn; a number is drawn iff the request is valid, the template resize succeeds and a free number exists; the reply is 200 iff moreover the QR is rendered and `mail_credentials` is an object; a drawn number is well-formed and not among the loaded keys, and the key file gains exactly it once the ticket is rendered, and is unchanged otherwise; on every path the reply and key file are those of `Respond` for the number drawn |
| Legacy.LegacyPayload | main.py:12 | the payload is exactly `NAME: ` + name, `, ID: ` + ID and `, Ticket Number: ` + the number, with `None` shown for a missing name or ID |
| Legacy.LegacyPayloadShape | main.py:12 | the payload starts with `NAME: ` + name, its last eight characters are the ticket number, and it is a single line when name and ID are |
| Legacy.LegacyPosition | main.py:29-32 | the 150 px QR code ends exactly 50 px from the right and bottom edges |
| Legacy.LegacyIsFixedApiPlacement | main.py:29-32 | the legacy position equals api.py's placement with size 150, offset (50, 50), rotation 0 and no resize |
| Legacy.OutputPathFor | main.py:51 | the output path is `Qr Generated/ticket-`, the row's ID as shown (`None` when missing), then `.png` |
| Legacy.OutputPathsDistinct | main.py:51 | two rows write to the same output file iff their IDs show alike: equal IDs, or a missing ID and the text `None` |
| Legacy.GenerateLegacyTicket | main.py:7-40 | the returned pair is (row `NAME`, possibly `None`, n) with n well-formed and the same number the payload embeds; the output path is `Qr Generated/ticket-<ID>.png` |
| Legacy.RunBatch | main.py:42-59 | one ticket per input row, in input order; `tickets.csv` is the header `NAME, Ticket Number` followed by `[name, ticket_number]` for each row, with an empty name field where the row had none |

## Left out

- toemail.py, `SEND MAIL USING CSV/` and `SEND MAIL USING API/`: bulk SMTP senders with no logic beyond I/O.
- Image work: PIL `resize`, `paste` and `save`, and the bounding box of `rotate(..., expand=1)`. The last is floating-point geometry, so the rotated QR size is an input.
- QR symbol encoding by the `qrcode` library (ISO/IEC 18004). It is a foreign call; only the payload text is modelled.
- `requests` template download, `os.path.exists` and `Image.open`: modelled as `Env.fetched` (a size, or `None` when `download_template_image` catches an error) and `Env.local` (no file, an unreadable file or directory, or an image's size).
- Flask routing, `send_from_directory` and JSON serialisation. The ticket URL is `urlRoot + "/generated/" + basename`, without `url_for`'s percent-encoding. `jsonify` sorts object keys by default, so the `qr_data` object in the reply body is written in key order, while `Issued.qrData` keeps the dict's insertion order.
- `smtplib`/MIME assembly in `send_email_with_attachment`: modelled as `MailOutcome`. The subject, body, format and sender name only reach the mailer, so they are not modelled.
- `datetime.now` (the timestamp is an input string) and the entropy of `random.choices` (a nondeterministic choice).
- CSV text encoding: files are sequences of rows. Ticket numbers and timestamps contain no comma, quote or newline, so a written row reads back unchanged.
- JSON values of unexpected types, which crash the handler with a 500 in the source. Examples: a non-string e-mail, a non-dict `offset` or `image_size`, a non-integer size. A `null` e-mail and a `null` or non-object `mail_credentials` are modelled (`ServerError`).
- I/O failures after validation (an image save or a key-file write that fails), which would raise a 500.
- Unicode case mapping: `upper()`/`lower()` are modelled for ASCII letters only.
- `str()` of floats, lists and objects in details: carried as the text Python prints (`Value.Other`).
- Races between concurrent requests, where keys are loaded and then saved without a lock.
- Creating `Qr_Generated` at import time.
- main.py's `csv.DictReader` with a header lacking the `NAME` or `ID` column, which raises `KeyError`. A short row is modelled: its missing cells are `None`, shown as `None` in the payload and the file name and written as an empty field to `tickets.csv`.
- TicketNumber.GenerateUnique: modelled by the first successful draw. Failed draws leave no trace in the source. When every number is taken, the model's `None` stands for a loop that never ends.
- Placement.QrDims: with a non-zero rotation the QR size is the imaging library's answer, taken as an input.

=== FILE: details.dfy ===
/** The `ticket_details` dictionary: an open, string-keyed map that keeps
    Python's insertion order. It is modelled as a sequence of key/value
    entries with pairwise distinct keys. */
module Details {

  import opened Text
  import opened Json

  /** A JSON value as decoded by Flask. Floats, lists and objects are kept
      only through the text `str()` gives for them. */
  datatype Value = Str(s: String) | Integer(i: int) | Boolean(b: bool) | Nothing | Other(repr: String)

  /** Python's `str(value)`, which is what an f-string inserts. */
  function Render(v: Value): String
  {
    match v
    case Str(s) => s
    case Integer(i) => IntToString(i)
    case Boolean(b) => if b then "True" else "False"
    case Nothing => "None"
    case Other(repr) => repr
  }

  datatype Entry = Entry(key: String, value: Value)

  type Details = seq<Entry>

  function Keys(d: Details): (ks: seq<String>)
    ensures |ks| == |d|
    ensures forall i :: 0 <= i < |d| ==> ks[i] == d[i].key
  {
    seq(|d|, i requires 0 <= i < |d| => d[i].key)
  }

  /** The dictionary invariant: no key occurs twice. */
  predicate DistinctKeys(d: Details)
  {
    forall i, j :: 0 <= i < j < |d| ==> d[i].key != d[j].key
  }

  /** `d.get(key)`: the value of the entry with that key, if any. */
  function Get(d: Details, key: String): (r: Option<Value>)
    ensures r.None? <==> key !in Keys(d)
    ensures r.Some? ==> exists i :: 0 <= i < |d| && d[i] == Entry(key, r.value)
  {
    if |d| == 0 then None
    else if d[0].key == key then Some(d[0].value)
    else
      var r := Get(d[1..], key);
      assert Keys(d) == [d[0].key] + Keys(d[1..]);
      if r.Some? then
        var i :| 0 <= i < |d[1..]| && d[1..][i] == Entry(key, r.value);
        assert d[i + 1] == Entry(key, r.value);
        r
      else r
  }

  /** In a dictionary, the entry with a key is the one `Get` reports. */
  lemma GetDistinct(d: Details, i: nat)
    requires DistinctKeys(d) && i < |d|
    ensures Get(d, d[i].key) == Some(d[i].value)
  {
    var r := Get(d, d[i].key);
    var j :| 0 <= j < |d| && d[j] == Entry(d[i].key, r.value);
    assert i == j;
  }

  /** `d[key] = value`: an existing key is overwritten where it stands,
      a new key is appended last. The keys keep their order, and every
      entry under another key stays where and what it was. */
  function Put(d: Details, key: String, value: Value): (r: Details)
    requires DistinctKeys(d)
    ensures DistinctKeys(r)
    ensures key in Keys(d) ==> Keys(r) == Keys(d)
    ensures key !in Keys(d) ==> r == d + [Entry(key, value)]
    ensures forall i :: 0 <= i < |d| && d[i].key != key ==> r[i] == d[i]
    ensures forall i :: 0 <= i < |r| && r[i].key == key ==> r[i].value == value
  {
    if key in Keys(d) then
      var r := seq(|d|, i requires 0 <= i < |d| => if d[i].key == key then Entry(key, value) else d[i]);
      assert Keys(r) == Keys(d);
      r
    else d + [Entry(key, value)]
  }

  /** The keys after `d[key] = value` are the old keys and `key`. */
  lemma PutKeys(d: Details, key: String, value: Value, k: String)
    requires DistinctKeys(d)
    ensures k in Keys(Put(d, key, value)) <==> k in Keys(d) || k == key
  {
    var r := Put(d, key, value);
    if key in Keys(d) {
      if k in Keys(r) {
        var i :| 0 <= i < |r| && r[i].key == k;
        assert d[i].key == k || k == key;
      }
      if k in Keys(d) {
        var i :| 0 <= i < |d| && d[i].key == k;
        assert r[i].key == k || k == key;
      }
    } else {
      assert Keys(r) == Keys(d) + [key];
    }
  }

  /** After `d[key] = value` the key reads back as `value`. */
  lemma PutThenGetSame(d: Details, key: String, value: Value)
    requires DistinctKeys(d)
    ensures Get(Put(d, key, value), key) == Some(value)
  {
    var r := Put(d, key, value);
    if key in Keys(d) {
      var i :| 0 <= i < |d| && d[i].key == key;
      assert r[i] == Entry(key, value);
      GetDistinct(r, i);
    } else {
      assert r[|d|] == Entry(key, value);
      GetDistinct(r, |d|);
    }
  }

  /** After `d[key] = value` every other key reads as before. */
  lemma PutThenGetOther(d: Details, key: String, value: Value, other: String)
    requires DistinctKeys(d)
    requires other != key
    ensures Get(Put(d, key, value), other) == Get(d, other)
  {
    var r := Put(d, key, value);
    PutKeys(d, key, value, other);
    if other in Keys(d) {
      var j :| 0 <= j < |d| && d[j].key == other;
      assert r[j] == d[j];
      GetDistinct(d, j);
      GetDistinct(r, j);
    }
  }

  /** `{key.lower(): value for key, value in d.items()}`: entries are
      inserted one by one under their lower-cased key, so keys that
      collide once lower-cased keep the first position and the last
      value. */
  function LowerKeys(d: Details): (r: Details)
    ensures DistinctKeys(r)
    decreases |d|
  {
    if |d| == 0 then []
    else Put(LowerKeys(d[..|d| - 1]), Lower(d[|d| - 1].key), d[|d| - 1].value)
  }

  /** The response map's keys are exactly the lower-cased keys of `d`. */
  lemma {:induction false} LowerKeysKeys(d: Details, k: String)
    ensures k in Keys(LowerKeys(d)) <==> exists i :: 0 <= i < |d| && Lower(d[i].key) == k
    decreases |d|
  {
    if |d| > 0 {
      var init := d[..|d| - 1];
      var last := d[|d| - 1];
      LowerKeysKeys(init, k);
      PutKeys(LowerKeys(init), Lower(last.key), last.value, k);
      if exists i :: 0 <= i < |init| && Lower(init[i].key) == k {
        var i :| 0 <= i < |init| && Lower(init[i].key) == k;
        assert d[i] == init[i];
      }
      if exists i :: 0 <= i < |d| && Lower(d[i].key) == k {
        var i :| 0 <= i < |d| && Lower(d[i].key) == k;
        if i < |init| {
          assert d[i] == init[i];
        }
      }
    }
  }

  /** Lower-casing entry by entry: when no two keys collide once
      lower-cased, the result is `d` with every key lower-cased, in the
      same order. */
  predicate LowerDistinct(d: Details)
  {
    forall i, j :: 0 <= i < j < |d| ==> Lower(d[i].key) != Lower(d[j].key)
  }

  lemma {:induction false} LowerKeysPointwise(d: Details)
    requires LowerDistinct(d)
    ensures |LowerKeys(d)| == |d|
    ensures forall i :: 0 <= i < |d| ==> LowerKeys(d)[i] == Entry(Lower(d[i].key), d[i].value)
    decreases |d|
  {
    if |d| > 0 {
      var init := d[..|d| - 1];
      var last := d[|d| - 1];
      LowerKeysPointwise(init);
      var acc := LowerKeys(init);
      assert Lower(last.key) !in Keys(acc) by {
        forall i | 0 <= i < |acc| ensures acc[i].key != Lower(last.key) {
          assert init[i] == d[i];
        }
      }
      assert LowerKeys(d) == acc + [Entry(Lower(last.key), last.value)];
    }
  }

  /** In general each lower-cased key reads back as the value of the last
      entry whose key lower-cases to it. */
  lemma {:induction false} LowerKeysLastWins(d: Details, i: nat)
    requires i < |d|
    requires forall j :: i < j < |d| ==> Lower(d[j].key) != Lower(d[i].key)
    ensures Get(LowerKeys(d), Lower(d[i].key)) == Some(d[i].value)
    decreases |d|
  {
    var init := d[..|d| - 1];
    var last := d[|d| - 1];
    var acc := LowerKeys(init);
    assert LowerKeys(d) == Put(acc, Lower(last.key), last.value);
    if i == |d| - 1 {
      PutThenGetSame(acc, Lower(last.key), last.value);
    } else {
      assert init[i] == d[i];
      assert Lower(last.key) != Lower(d[i].key);
      forall j | i < j < |init| ensures Lower(init[j].key) != Lower(init[i].key) {
        assert init[j] == d[j];
      }
      LowerKeysLastWins(init, i);
      PutThenGetOther(acc, Lower(last.key), last.value, Lower(d[i].key));
    }
  }
}

=== FILE: json.dfy ===
/** The shapes a field of a decoded JSON request can take, and the Python
    idioms the handler applies to them (`dict.get` with a default,
    truthiness). */
module Json {

  import opened Text

  datatype Option<+T> = None | Some(value: T)

  /** An operation's value, or the error it ends with. */
  datatype Result<+T, +E> = Success(value: T) | Failure(error: E)

  /** A key of a JSON object: missing, present with `null`, or present
      with a value. */
  datatype Field<+T> = Absent | Null | Present(value: T)

  /** `d.get(key, default)`: the stored value when the key is there, even
      when it is `null`; the default otherwise. */
  function GetOr<T>(f: Field<T>, default: Option<T>): (r: Option<T>)
    ensures f.Absent? ==> r == default
    ensures f.Null? ==> r.None?
    ensures f.Present? ==> r == Some(f.value)
  {
    match f
    case Absent => default
    case Null => None
    case Present(v) => Some(v)
  }

  /** Python truthiness of an optional string: `None` and `""` are false. */
  predicate Truthy(s: Option<String>)
  {
    s.Some? && |s.value| > 0
  }
}

=== FILE: key_file.dfy ===
/** The key file `ticket_keys.csv` that api.py keeps so that ticket numbers
    are not reissued. The file is modelled by the rows a CSV reader returns
    for it; a row is a sequence of fields and a blank line reads as an
    empty row. */
module KeyFile {

  import opened Text

  type Row = seq<String>

  /** The key file on disk: not yet created, or present with its rows. */
  datatype KeyFile = Missing | Present(rows: seq<Row>)

  function RowsOf(f: KeyFile): seq<Row>
  {
    match f
    case Missing => []
    case Present(rows) => rows
  }

  /** The first fields of the non-empty rows, read in file order. */
  function KeysOf(rows: seq<Row>): set<String>
  {
    if |rows| == 0 then {}
    else
      var last := rows[|rows| - 1];
      KeysOf(rows[..|rows| - 1]) + (if |last| > 0 then {last[0]} else {})
  }

  /** A string is a known key iff some non-empty row starts with it. */
  lemma {:induction false} KeysOfMeaning(rows: seq<Row>, key: String)
    ensures key in KeysOf(rows) <==> exists i :: 0 <= i < |rows| && |rows[i]| > 0 && rows[i][0] == key
  {
    if |rows| > 0 {
      var init := rows[..|rows| - 1];
      KeysOfMeaning(init, key);
      if exists i :: 0 <= i < |rows| && |rows[i]| > 0 && rows[i][0] == key {
        var i :| 0 <= i < |rows| && |rows[i]| > 0 && rows[i][0] == key;
        if i < |rows| - 1 {
          assert init[i] == rows[i];
        }
      }
      if key in KeysOf(init) {
        var i :| 0 <= i < |init| && |init[i]| > 0 && init[i][0] == key;
        assert rows[i] == init[i];
      }
    }
  }

  /** `load_ticket_keys(key_file)`: no keys when the file does not exist,
      otherwise the first field of every non-empty row. */
  function LoadKeys(f: KeyFile): (keys: set<String>)
    ensures f.Missing? ==> keys == {}
  {
    KeysOf(RowsOf(f))
  }

  /** A key is loaded iff some non-empty row of the file starts with it. */
  lemma LoadKeysMeaning(f: KeyFile, key: String)
    ensures key in LoadKeys(f) <==> exists row :: row in RowsOf(f) && |row| > 0 && row[0] == key
  {
    var rows := RowsOf(f);
    KeysOfMeaning(rows, key);
    if exists row :: row in rows && |row| > 0 && row[0] == key {
      var row :| row in rows && |row| > 0 && row[0] == key;
      var i :| 0 <= i < |rows| && rows[i] == row;
    }
  }

  /** `save_ticket_key(key_file, ticket_number)`: append mode creates the
      file when it is missing and adds the row `[ticket_number, timestamp]`
      after all existing rows. */
  function SaveKey(f: KeyFile, ticketNumber: String, timestamp: String): (g: KeyFile)
    ensures g.Present?
    ensures RowsOf(g) == RowsOf(f) + [[ticketNumber, timestamp]]
  {
    Present(RowsOf(f) + [[ticketNumber, timestamp]])
  }

  /** Saving a key and loading again yields the earlier keys plus the new
      one, and nothing else. */
  lemma SaveThenLoad(f: KeyFile, ticketNumber: String, timestamp: String)
    ensures LoadKeys(SaveKey(f, ticketNumber, timestamp)) == LoadKeys(f) + {ticketNumber}
  {
    var rows := RowsOf(f);
    assert (rows + [[ticketNumber, timestamp]])[..|rows|] == rows;
  }

  /** A fresh key grows the key set by exactly one. */
  lemma SaveFreshGrowsByOne(f: KeyFile, ticketNumber: String, timestamp: String)
    requires ticketNumber !in LoadKeys(f)
    ensures |LoadKeys(SaveKey(f, ticketNumber, timestamp))| == |LoadKeys(f)| + 1
  {
    SaveThenLoad(f, ticketNumber, timestamp);
    assert LoadKeys(f) !! {ticketNumber};
  }
}

=== FILE: legacy.dfy ===
/** main.py, the older fixed-parameter pipeline: every row of `data.csv`
    gets a random ticket number (no uniqueness check), a one-line QR
    payload, a 150x150 QR code 50 pixels in from the bottom-right corner,
    and a row in `tickets.csv`. */
module Legacy {

  import opened Text
  import opened Json
  import opened TicketNumber
  import opened QrConfig
  import opened Placement

  /** A row of `data.csv` as `csv.DictReader` yields it, with the two
      columns the script reads: `None` when the row is too short to reach
      the column, which `DictReader` fills with `None`. */
  datatype InputRow = InputRow(name: Option<String>, id: Option<String>)

  /** A cell as an f-string shows it: the text, or `None`. */
  function ShownText(v: Option<String>): (t: String)
    ensures v.Some? ==> t == v.value
    ensures v.None? ==> t == "None"
  {
    if v.Some? then v.value else "None"
  }

  /** A value as `csv.writer` writes it: the text, or an empty field for
      `None`. */
  function CsvField(v: Option<String>): (t: String)
    ensures v.Some? ==> t == v.value
    ensures v.None? ==> t == []
  {
    if v.Some? then v.value else []
  }

  function NameText(row: InputRow): String { ShownText(row.name) }

  function IdText(row: InputRow): String { ShownText(row.id) }

  /** The QR code's side in pixels. */
  const QrSide: int := 150

  /** The gap between the QR code and the template's right and bottom
      edges. */
  const Margin: int := 50

  const PayloadPrefix: String := "NAME: "
  const IdLabel: String := ", ID: "
  const TicketLabel: String := ", Ticket Number: "

  /** `f"NAME: {row['NAME']}, ID: {row['ID']}, Ticket Number: {n}"`. */
  function LegacyPayload(row: InputRow, n: String): (p: String)
    ensures |p| == |PayloadPrefix| + |NameText(row)| + |IdLabel| + |IdText(row)| + |TicketLabel| + |n|
    ensures p[..|PayloadPrefix| + |NameText(row)|] == PayloadPrefix + NameText(row)
    ensures p[|PayloadPrefix| + |NameText(row)|..|PayloadPrefix| + |NameText(row)| + |IdLabel| + |IdText(row)|] == IdLabel + IdText(row)
    ensures p[|p| - |TicketLabel| - |n|..] == TicketLabel + n
  {
    var p := PayloadPrefix + NameText(row) + IdLabel + IdText(row) + TicketLabel + n;
    var a := PayloadPrefix + NameText(row);
    var b := IdLabel + IdText(row);
    var c := TicketLabel + n;
    assert p == a + b + c;
    assert p[..|a|] == a;
    assert p[|a|..|a| + |b|] == b;
    assert p[|p| - |c|..] == c;
    p
  }

  /** The ticket number read back from a payload: its last eight symbols. */
  function TicketNumberOfPayload(payload: String): Option<String>
  {
    if |payload| >= Length then Some(payload[|payload| - Length..]) else None
  }

  /** The payload starts with the name, ends with the ticket number, and
      is a single line when the name and ID are. */
  lemma LegacyPayloadShape(row: InputRow, n: String)
    requires IsTicketNumber(n)
    ensures LegacyPayload(row, n)[..|PayloadPrefix| + |NameText(row)|] == PayloadPrefix + NameText(row)
    ensures TicketNumberOfPayload(LegacyPayload(row, n)) == Some(n)
    ensures Newline !in NameText(row) && Newline !in IdText(row) ==> Newline !in LegacyPayload(row, n)
  {
  }

  /** `(template.width - 150 - 50, template.height - 150 - 50)`. */
  function LegacyPosition(template: Dims): (p: Point)
    ensures p.x + QrSide + Margin == template.width
    ensures p.y + QrSide + Margin == template.height
  {
    Point(template.width - QrSide - Margin, template.height - QrSide - Margin)
  }

  /** The legacy placement is api.py's placement with size 150, offset
      (50, 50), no rotation and no resize. */
  lemma LegacyIsFixedApiPlacement(template: Dims, rotated: Dims)
    ensures LegacyPosition(template) == PlaceQr(template, None, QrSettings(QrSide, Margin, Margin, 0), rotated)
  {
  }

  const OutputPrefix: String := "Qr Generated/ticket-"
  const OutputSuffix: String := ".png"

  /** `f"Qr Generated/ticket-{row['ID']}.png"`: the ID as shown sits,
      unchanged, between a fixed prefix and the `.png` extension, so two
      rows share an output file exactly when their IDs show alike. */
  function OutputPathFor(row: InputRow): (path: String)
    ensures |path| == |OutputPrefix| + |IdText(row)| + |OutputSuffix|
    ensures path[..|OutputPrefix|] == OutputPrefix
    ensures path[|OutputPrefix|..|path| - |OutputSuffix|] == IdText(row)
    ensures path[|path| - |OutputSuffix|..] == OutputSuffix
  {
    var path := OutputPrefix + IdText(row) + OutputSuffix;
    assert path[..|OutputPrefix|] == OutputPrefix;
    assert path[|OutputPrefix|..|path| - |OutputSuffix|] == IdText(row);
    assert path[|path| - |OutputSuffix|..] == OutputSuffix;
    path
  }

  /** Distinct IDs never overwrite each other's ticket; a row missing its
      ID shares a file with a row whose ID is the text `None`. */
  lemma OutputPathsDistinct(r1: InputRow, r2: InputRow)
    ensures OutputPathFor(r1) == OutputPathFor(r2) <==> IdText(r1) == IdText(r2)
    ensures r1.id.Some? && r2.id.Some? ==> (OutputPathFor(r1) == OutputPathFor(r2) <==> r1.id == r2.id)
    ensures r1.id == None && r2.id == Some("None") ==> OutputPathFor(r1) == OutputPathFor(r2)
  {
  }

  /** What main.py produces for one row. */
  datatype LegacyTicket = LegacyTicket(name: Option<String>, ticketNumber: String, payload: String, position: Point, outputPath: String)

  /** `generate_ticket_qr(row, template_path, output_path)`: draws a number,
      builds the payload around it, places the QR code, and returns the
      pair `(row['NAME'], ticket_number)`. */
  method GenerateLegacyTicket(row: InputRow, template: Dims) returns (t: LegacyTicket)
    ensures t.name == row.name
    ensures IsTicketNumber(t.ticketNumber)
    ensures t.payload == LegacyPayload(row, t.ticketNumber)
    ensures TicketNumberOfPayload(t.payload) == Some(t.ticketNumber)
    ensures t.position == LegacyPosition(template)
    ensures t.outputPath == OutputPathFor(row)
  {
    var n := Draw();
    LegacyPayloadShape(row, n);
    t := LegacyTicket(row.name, n, LegacyPayload(row, n), LegacyPosition(template), OutputPathFor(row));
  }

  const Header: seq<String> := ["NAME", "Ticket Number"]

  /** `main()`: one ticket per input row, in input order, and the rows of
      `tickets.csv`: the header, then `[name, ticket_number]` per ticket,
      with an empty field where the row had no name. */
  method RunBatch(rows: seq<InputRow>, template: Dims) returns (tickets: seq<LegacyTicket>, csv: seq<seq<String>>)
    ensures |tickets| == |rows| && |csv| == |rows| + 1
    ensures csv[0] == Header
    ensures forall i :: 0 <= i < |rows| ==>
      && tickets[i].outputPath == OutputPathFor(rows[i])
      && IsTicketNumber(tickets[i].ticketNumber)
      && tickets[i].payload == LegacyPayload(rows[i], tickets[i].ticketNumber)
      && csv[i + 1] == [CsvField(rows[i].name), tickets[i].ticketNumber]
  {
    tickets := [];
    var written: seq<seq<String>> := [];
    var k := 0;
    while k < |rows|
      invariant 0 <= k <= |rows|
      invariant |tickets| == k && |written| == k
      invariant forall i :: 0 <= i < k ==>
        && tickets[i].outputPath == OutputPathFor(rows[i])
        && IsTicketNumber(tickets[i].ticketNumber)
        && tickets[i].payload == LegacyPayload(rows[i], tickets[i].ticketNumber)
        && written[i] == [CsvField(rows[i].name), tickets[i].ticketNumber]
    {
      var t := GenerateLegacyTicket(rows[k], template);
      tickets := tickets + [t];
      written := written + [[CsvField(t.name), t.ticketNumber]];
      k := k + 1;
    }
    csv := [Header] + written;
  }
}

=== FILE: payload.dfy ===
/** The text api.py encodes into the QR symbol: one `KEY: value` line per
    details entry, in insertion order, joined by newlines. */
module Payload {

  import opened Text
  import opened Details

  /** One payload line: the upper-cased key, `": "`, the rendered value. */
  function Line(e: Entry): String
  {
    Upper(e.key) + ": " + Render(e.value)
  }

  function Lines(d: Details): (ls: seq<String>)
    ensures |ls| == |d|
    ensures forall i :: 0 <= i < |d| ==> ls[i] == Line(d[i])
  {
    seq(|d|, i requires 0 <= i < |d| => Line(d[i]))
  }

  /** `"\n".join(f"{key.upper()}: {value}" for key, value in d.items())`. */
  function QrPayload(d: Details): (p: String)
    ensures d == [] ==> p == []
    ensures |d| >= 1 ==> |p| >= |Line(d[0])| && p[..|Line(d[0])|] == Line(d[0])
    ensures |d| >= 1 ==> |p| >= |Line(d[|d| - 1])| && p[|p| - |Line(d[|d| - 1])|..] == Line(d[|d| - 1])
  {
    var ls := Lines(d);
    if |ls| == 0 then []
    else
      JoinStartsWithFirst(ls, Newline);
      JoinEndsWithLast(ls, Newline);
      Join(ls, Newline)
  }

  /** No key and no rendered value holds a line break. */
  predicate SingleLineEntries(d: Details)
  {
    forall i :: 0 <= i < |d| ==> Newline !in d[i].key && Newline !in Render(d[i].value)
  }

  /** Reading the payload back line by line gives exactly one line per
      entry, in insertion order, each `KEY: value`; so there is no
      trailing newline and no blank line. */
  lemma PayloadLines(d: Details)
    requires |d| >= 1
    requires SingleLineEntries(d)
    ensures Split(QrPayload(d), Newline) == Lines(d)
    ensures |Split(QrPayload(d), Newline)| == |d|
  {
    forall i | 0 <= i < |d| ensures Newline !in Lines(d)[i] {
      UpperKeepsSeparator(d[i].key, Newline);
      assert Lines(d)[i] == Upper(d[i].key) + ": " + Render(d[i].value);
    }
    SplitJoin(Lines(d), Newline);
  }

  /** The payload never ends with a newline unless the last value does. */
  lemma PayloadNoTrailingNewline(d: Details)
    requires |d| >= 1
    requires var v := Render(d[|d| - 1].value); v == [] || v[|v| - 1] != Newline
    ensures |QrPayload(d)| > 0 && QrPayload(d)[|QrPayload(d)| - 1] != Newline
  {
    var ls := Lines(d);
    var last := ls[|ls| - 1];
    JoinEndsWithLast(ls, Newline);
    var p := QrPayload(d);
    assert last == Upper(d[|d| - 1].key) + ": " + Render(d[|d| - 1].value);
    assert p[|p| - 1] == last[|last| - 1];
  }
}

=== FILE: placement.dfy ===
/** Where the QR image is pasted on the ticket template: its bottom-right
    corner sits `offset` pixels in from the template's bottom-right
    corner. Pixel operations themselves are not modelled; only the
    dimensions that decide the position are. */
module Placement {

  import opened Json
  import opened QrConfig

  datatype Dims = Dims(width: int, height: int)

  datatype Point = Point(x: int, y: int)

  /** The optional `image_size` object, each key possibly missing. */
  datatype SizeDict = SizeDict(width: Option<int>, height: Option<int>)

  /** The template dimensions after the optional resize: the requested
      size only when `image_size` carries both `width` and `height`. */
  function TemplateDims(loaded: Dims, imageSize: Option<SizeDict>): (d: Dims)
    ensures imageSize.Some? && imageSize.value.width.Some? && imageSize.value.height.Some? ==>
      d == Dims(imageSize.value.width.value, imageSize.value.height.value)
    ensures !(imageSize.Some? && imageSize.value.width.Some? && imageSize.value.height.Some?) ==> d == loaded
  {
    match imageSize
    case Some(SizeDict(Some(w), Some(h))) => Dims(w, h)
    case _ => loaded
  }

  /** The QR image dimensions: `size` by `size`, or, when a non-zero
      rotation expands the bounding box, the dimensions the imaging library
      reports for the rotated image. */
  function QrDims(settings: QrSettings, rotated: Dims): (d: Dims)
    ensures settings.rotation == 0 ==> d == Dims(settings.size, settings.size)
  {
    if settings.rotation != 0 then rotated else Dims(settings.size, settings.size)
  }

  /** The paste position: template size minus QR size minus offset, on
      each axis. */
  function Position(template: Dims, qr: Dims, offsetX: int, offsetY: int): (p: Point)
    ensures p.x + qr.width + offsetX == template.width
    ensures p.y + qr.height + offsetY == template.height
  {
    Point(template.width - qr.width - offsetX, template.height - qr.height - offsetY)
  }

  /** The whole placement decision of `generate_ticket_qr`. The QR's right
      edge lies `offsetX` pixels left of the (possibly resized) template's
      right edge and its bottom edge `offsetY` pixels above its bottom
      edge; the QR is `size` square with rotation 0, and has the rotated
      image's size otherwise. */
  function PlaceQr(loaded: Dims, imageSize: Option<SizeDict>, settings: QrSettings, rotated: Dims): (p: Point)
    ensures settings.rotation == 0 ==>
      p.x + settings.size + settings.offsetX == TemplateDims(loaded, imageSize).width &&
      p.y + settings.size + settings.offsetY == TemplateDims(loaded, imageSize).height
    ensures settings.rotation != 0 ==>
      p.x + rotated.width + settings.offsetX == TemplateDims(loaded, imageSize).width &&
      p.y + rotated.height + settings.offsetY == TemplateDims(loaded, imageSize).height
  {
    Position(TemplateDims(loaded, imageSize), QrDims(settings, rotated), settings.offsetX, settings.offsetY)
  }

  /** A 2000x647 template with a 350-pixel QR at offset (100, 200) gets the
      QR at (1550, 97). */
  lemma PlacementExample(rotated: Dims)
    ensures PlaceQr(Dims(2000, 647), None, QrSettings(350, 100, 200, 0), rotated) == Point(1550, 97)
  {
  }
}

=== FILE: qr_config.dfy ===
/** The `qr_config` request object of api.py and how it is merged over the
    built-in defaults `{"size": 150, "offset": {"x": 50, "y": 120},
    "rotation": 0}`. A supplied field holds an integer (or, for `offset`,
    an object); a field left out of the request is `None`. */
module QrConfig {

  import opened Json

  const DefaultSize: int := 150
  const DefaultOffsetX: int := 50
  const DefaultOffsetY: int := 120
  const DefaultRotation: int := 0

  /** An `offset` object, with each of `x` and `y` possibly missing. */
  datatype OffsetDict = OffsetDict(x: Option<int>, y: Option<int>)

  /** A `qr_config` object, with each top-level key possibly missing. */
  datatype ConfigDict = ConfigDict(size: Option<int>, offset: Option<OffsetDict>, rotation: Option<int>)

  /** The settings the QR code is drawn with. */
  datatype QrSettings = QrSettings(size: int, offsetX: int, offsetY: int, rotation: int)

  const Defaults: ConfigDict :=
    ConfigDict(Some(DefaultSize), Some(OffsetDict(Some(DefaultOffsetX), Some(DefaultOffsetY))), Some(DefaultRotation))

  function Prefer<T>(given: Option<T>, base: Option<T>): Option<T>
  {
    if given.Some? then given else base
  }

  function OrDefault(v: Option<int>, default: int): int
  {
    if v.Some? then v.value else default
  }

  /** The `x` the request supplies inside its own `offset`, if any. */
  function SuppliedX(c: ConfigDict): Option<int>
  {
    if c.offset.Some? then c.offset.value.x else None
  }

  /** The `y` the request supplies inside its own `offset`, if any. */
  function SuppliedY(c: ConfigDict): Option<int>
  {
    if c.offset.Some? then c.offset.value.y else None
  }

  /** `base.update(given)`: a shallow merge, in which a supplied top-level
      key replaces the base entry as a whole. */
  function Update(base: ConfigDict, given: ConfigDict): ConfigDict
  {
    ConfigDict(Prefer(given.size, base.size), Prefer(given.offset, base.offset), Prefer(given.rotation, base.rotation))
  }

  /** api.py's defaulting: merge the request (when it is a non-empty
      object) over the defaults, then read `size`, `offset.get("x", 50)`,
      `offset.get("y", 120)` and `get("rotation", 0)`.

      Each effective setting depends only on the matching request field:
      the supplied value when there is one, the default otherwise. So a
      supplied `offset` missing `x` or `y` falls back to 50 or 120 for that
      component alone, just as if no offset had been given. */
  function Resolve(config: Option<ConfigDict>): (s: QrSettings)
    ensures config.None? ==> s == QrSettings(DefaultSize, DefaultOffsetX, DefaultOffsetY, DefaultRotation)
    ensures config.Some? ==> s.size == OrDefault(config.value.size, DefaultSize)
    ensures config.Some? ==> s.offsetX == OrDefault(SuppliedX(config.value), DefaultOffsetX)
    ensures config.Some? ==> s.offsetY == OrDefault(SuppliedY(config.value), DefaultOffsetY)
    ensures config.Some? ==> s.rotation == OrDefault(config.value.rotation, DefaultRotation)
  {
    var merged := if config.Some? then Update(Defaults, config.value) else Defaults;
    var offset := merged.offset.value;
    QrSettings(
      merged.size.value,
      if offset.x.Some? then offset.x.value else DefaultOffsetX,
      if offset.y.Some? then offset.y.value else DefaultOffsetY,
      if merged.rotation.Some? then merged.rotation.value else DefaultRotation)
  }

  /** An empty `qr_config` object is falsy in Python and changes nothing. */
  lemma EmptyConfigIsDefault()
    ensures Resolve(Some(ConfigDict(None, None, None))) == Resolve(None)
  {
  }
}

=== FILE: text.dfy ===
/** String helpers standing in for the few Python `str` methods the ticket
    pipeline uses: `upper`, `lower`, `strip`, `"\n".join` and `split`, plus
    decimal rendering of integers. Case mapping covers ASCII letters only. */
module Text {

  type String = seq<char>

  const Newline: char := '\n'

  predicate IsAsciiLower(c: char) { 'a' <= c <= 'z' }

  predicate IsAsciiUpper(c: char) { 'A' <= c <= 'Z' }

  /** `c.upper()` for one character (ASCII letters only). */
  function UpperChar(c: char): (u: char)
    ensures !IsAsciiLower(u)
    ensures IsAsciiLower(c) ==> IsAsciiUpper(u) && u as int == c as int - 32
    ensures !IsAsciiLower(c) ==> u == c
  {
    if IsAsciiLower(c) then (c as int - 32) as char else c
  }

  /** `c.lower()` for one character (ASCII letters only). */
  function LowerChar(c: char): (l: char)
    ensures !IsAsciiUpper(l)
    ensures IsAsciiUpper(c) ==> IsAsciiLower(l) && l as int == c as int + 32
    ensures !IsAsciiUpper(c) ==> l == c
  {
    if IsAsciiUpper(c) then (c as int + 32) as char else c
  }

  /** `s.upper()`: every character mapped on its own. */
  function Upper(s: String): (u: String)
    ensures |u| == |s|
    ensures forall i :: 0 <= i < |s| ==> u[i] == UpperChar(s[i])
  {
    seq(|s|, i requires 0 <= i < |s| => UpperChar(s[i]))
  }

  /** `s.lower()`: every character mapped on its own. */
  function Lower(s: String): (l: String)
    ensures |l| == |s|
    ensures forall i :: 0 <= i < |s| ==> l[i] == LowerChar(s[i])
  {
    seq(|s|, i requires 0 <= i < |s| => LowerChar(s[i]))
  }

  /** Case mapping changes letters only, so a separator survives it. */
  lemma UpperKeepsSeparator(s: String, c: char)
    requires !IsAsciiLower(c) && !IsAsciiUpper(c)
    ensures c in Upper(s) <==> c in s
  {
    if c in s {
      var i :| 0 <= i < |s| && s[i] == c;
      assert Upper(s)[i] == c;
    }
  }

  /** Upper-casing first makes no difference to the lower-cased result, so
      a payload key and the response key name the same field. */
  lemma LowerOfUpper(s: String)
    ensures Lower(Upper(s)) == Lower(s)
  {
  }

  /** The characters Python's `str.isspace` accepts, which `str.strip()`
      removes from both ends. */
  predicate IsSpace(c: char)
  {
    var n := c as int;
    (9 <= n <= 13) || (0x1C <= n <= 0x20) || n == 0x85 || n == 0xA0 || n == 0x1680
    || (0x2000 <= n <= 0x200A) || n == 0x2028 || n == 0x2029 || n == 0x202F
    || n == 0x205F || n == 0x3000
  }

  predicate AllSpace(s: String)
  {
    forall i :: 0 <= i < |s| ==> IsSpace(s[i])
  }

  /** The end of the run of white space in `s` that starts at `i`. */
  function SpaceRunEnd(s: String, i: nat): (k: nat)
    requires i <= |s|
    ensures i <= k <= |s|
    ensures forall m :: i <= m < k ==> IsSpace(s[m])
    ensures k == |s| || !IsSpace(s[k])
    decreases |s| - i
  {
    if i == |s| || !IsSpace(s[i]) then i else SpaceRunEnd(s, i + 1)
  }

  /** The start of the run of white space in `s[lo..j]` that ends at `j`. */
  function SpaceRunStart(s: String, lo: nat, j: nat): (k: nat)
    requires lo <= j <= |s|
    ensures lo <= k <= j
    ensures forall m :: k <= m < j ==> IsSpace(s[m])
    ensures k == lo || !IsSpace(s[k - 1])
    decreases j - lo
  {
    if j == lo || !IsSpace(s[j - 1]) then j else SpaceRunStart(s, lo, j - 1)
  }

  /** `s.strip()`: `s` is the result surrounded by two runs of white space,
      and the result neither starts nor ends with white space. */
  function Strip(s: String): (r: String)
    ensures exists i, j :: 0 <= i <= j <= |s| && r == s[i..j] && AllSpace(s[..i]) && AllSpace(s[j..])
    ensures r == [] || (!IsSpace(r[0]) && !IsSpace(r[|r| - 1]))
  {
    var i := SpaceRunEnd(s, 0);
    var j := SpaceRunStart(s, i, |s|);
    assert AllSpace(s[..i]) by {
      forall m | 0 <= m < i ensures IsSpace(s[..i][m]) {
        assert s[..i][m] == s[m];
      }
    }
    assert AllSpace(s[j..]) by {
      forall m | 0 <= m < |s| - j ensures IsSpace(s[j..][m]) {
        assert s[j..][m] == s[j + m];
      }
    }
    s[i..j]
  }

  /** Python's `not s.strip()`: a string is blank exactly when it is all
      white space. */
  lemma StripEmptyIffAllSpace(s: String)
    ensures Strip(s) == [] <==> AllSpace(s)
  {
    var r := Strip(s);
    var i, j :| 0 <= i <= j <= |s| && r == s[i..j] && AllSpace(s[..i]) && AllSpace(s[j..]);
    if r == [] {
      forall k | 0 <= k < |s| ensures IsSpace(s[k]) {
        if k < i { assert s[k] == s[..i][k]; } else { assert s[k] == s[j..][k - j]; }
      }
    }
  }

  /** `sep.join(parts)`. */
  function Join(parts: seq<String>, sep: char): String
  {
    if |parts| == 0 then []
    else if |parts| == 1 then parts[0]
    else parts[0] + [sep] + Join(parts[1..], sep)
  }

  /** A join starts with its first part. */
  lemma JoinStartsWithFirst(parts: seq<String>, sep: char)
    requires |parts| >= 1
    ensures |Join(parts, sep)| >= |parts[0]|
    ensures Join(parts, sep)[..|parts[0]|] == parts[0]
  {
  }

  /** A join ends with its last part. */
  lemma {:induction false} JoinEndsWithLast(parts: seq<String>, sep: char)
    requires |parts| >= 1
    ensures |Join(parts, sep)| >= |parts[|parts| - 1]|
    ensures Join(parts, sep)[|Join(parts, sep)| - |parts[|parts| - 1]|..] == parts[|parts| - 1]
    decreases |parts|
  {
    if |parts| > 1 {
      JoinEndsWithLast(parts[1..], sep);
      var j := Join(parts[1..], sep);
      assert Join(parts, sep) == (parts[0] + [sep]) + j;
    }
  }

  /** Index of the first occurrence of `c` in `s`. */
  function IndexOf(s: String, c: char): (i: nat)
    requires c in s
    ensures i < |s| && s[i] == c && c !in s[..i]
  {
    if s[0] == c then 0
    else
      var i := 1 + IndexOf(s[1..], c);
      assert s[..i] == [s[0]] + s[1..][..i - 1];
      i
  }

  /** The first occurrence is the one with no earlier occurrence. */
  lemma IndexOfFirst(s: String, c: char, i: nat)
    requires i < |s| && s[i] == c && c !in s[..i]
    ensures c in s && IndexOf(s, c) == i
  {
  }

  /** `s.split(sep)`: the pieces between separators, at least one. */
  function Split(s: String, sep: char): (parts: seq<String>)
    ensures |parts| >= 1
    ensures forall k :: 0 <= k < |parts| ==> sep !in parts[k]
    decreases |s|
  {
    if sep !in s then [s]
    else
      var i := IndexOf(s, sep);
      [s[..i]] + Split(s[i + 1..], sep)
  }

  /** Splitting a join recovers the parts, provided no part holds the
      separator. */
  lemma {:induction false} SplitJoin(parts: seq<String>, sep: char)
    requires |parts| >= 1
    requires forall k :: 0 <= k < |parts| ==> sep !in parts[k]
    ensures Split(Join(parts, sep), sep) == parts
    decreases |parts|
  {
    if |parts| > 1 {
      var first := parts[0];
      var rest := Join(parts[1..], sep);
      var s := first + [sep] + rest;
      assert Join(parts, sep) == s;
      assert s[..|first|] == first;
      IndexOfFirst(s, sep, |first|);
      assert s[|first| + 1..] == rest;
      assert Split(s, sep) == [first] + Split(rest, sep);
      SplitJoin(parts[1..], sep);
      assert [first] + parts[1..] == parts;
    }
  }

  /** Joining a split gives the string back. */
  lemma {:induction false} JoinSplit(s: String, sep: char)
    ensures Join(Split(s, sep), sep) == s
    decreases |s|
  {
    if sep in s {
      var i := IndexOf(s, sep);
      var tail := Split(s[i + 1..], sep);
      JoinSplit(s[i + 1..], sep);
      var parts := [s[..i]] + tail;
      assert Split(s, sep) == parts;
      assert parts[0] == s[..i] && parts[1..] == tail && |parts| >= 2;
      assert Join(parts, sep) == parts[0] + [sep] + Join(tail, sep);
      assert s == s[..i] + [sep] + s[i + 1..];
    }
  }

  function DigitChar(d: nat): (c: char)
    requires d < 10
    ensures '0' <= c <= '9'
  {
    ('0' as int + d) as char
  }

  /** Decimal digits of a natural number, most significant first. */
  function NatToString(n: nat): (s: String)
    ensures |s| >= 1
    ensures forall i :: 0 <= i < |s| ==> '0' <= s[i] <= '9'
  {
    if n < 10 then [DigitChar(n)] else NatToString(n / 10) + [DigitChar(n % 10)]
  }

  /** Python's `str(i)` for an integer. */
  function IntToString(i: int): String
  {
    if i < 0 then "-" + NatToString(-i) else NatToString(i)
  }
}

=== FILE: ticket_api.dfy ===
/** The `/generate_ticket` endpoint of api.py: request validation, ticket
    issuance, the decision whether to e-mail the ticket, and the JSON
    response. Template download, file existence, the template's size,
    the mail outcome and the current time are inputs (`Env`). */
module TicketApi {

  import opened Text
  import opened Json
  import opened Details
  import opened QrConfig
  import opened Placement
  import opened TicketNumber
  import opened TicketQr
  import KF = KeyFile

  /** The optional `mail_credentials` object. */
  datatype MailCredentials = MailCredentials(emailUser: Field<String>, emailPassword: Field<String>)

  /** The decoded JSON body. `useImageUrl` and `sendEmail` are the
      truthiness of `use_image_url` and `send_email` (both default false);
      `ticketDetails` is `None` when the key is missing or `null`.
      `mailCredentials` is `Null` for a `null` or any other non-object
      value: both make `mail_credentials.get` raise. */
  datatype Request = Request(
    email: Field<String>,
    useImageUrl: bool,
    templateImageUrl: Field<String>,
    templateImagePath: Field<String>,
    imageSize: Option<SizeDict>,
    qrConfig: Option<ConfigDict>,
    ticketDetails: Option<Details>,
    mailCredentials: Field<MailCredentials>,
    sendEmail: bool)

  /** What an attempted send reports: delivered, or the exception text. */
  datatype MailOutcome = Delivered | Failed(reason: String)

  /** What is at `template_image_path`: nothing, something `Image.open`
      cannot read (a directory, a file that is not an image), or an image
      of the given size. */
  datatype LocalTemplate = NoFile | Unreadable | Readable(dims: Dims)

  /** Whether the imaging libraries raise while the ticket is composed: the
      template resize rejects `image_size` (before the number is drawn), or,
      after the draw, `qr.make` finds the payload too long for any QR
      version or the QR resize rejects `size`. Either way the handler
      answers 500 before any key is saved. */
  datatype Imaging = Renders | TemplateResizeFails | QrFails

  /** The world the handler observes. `fetched` is the downloaded template's
      size (`None` when the download or decoding fails, which
      `download_template_image` turns into `None`), `local` what is at
      `template_image_path`. */
  datatype Env = Env(
    defaultUser: Option<String>,
    defaultPassword: Option<String>,
    fetched: Option<Dims>,
    local: LocalTemplate,
    keyFile: KF.KeyFile,
    timestamp: String,
    rotated: Dims,
    mail: MailOutcome,
    urlRoot: String,
    imaging: Imaging)

  /** The handler's reply: HTTP 400 with a message, HTTP 500 for an
      unhandled exception, HTTP 200 with the ticket, or no reply at all
      when the number generator never finds a free number. */
  datatype Response =
    | BadRequest(message: String)
    | ServerError
    | Issued(email: String, emailStatus: String, qrData: Details, ticketNumber: String, ticketUrl: String)
    | NoResponse

  const MissingEmail: String := "Missing required field: email"
  const MissingUrl: String := "template_image_url must be provided when use_image_url is true"
  const DownloadFailed: String := "Failed to download template image from URL"
  const MissingPath: String := "template_image_path must be provided when use_image_url is false"
  const NotSent: String := "Not sent"

  function TemplateNotFound(path: String): String
  {
    "Template image not found at " + path
  }

  /** The truthiness of a present-or-missing string field. */
  predicate FieldTruthy(f: Field<String>)
  {
    f.Present? && |f.value| > 0
  }

  /** The request names a recipient: `email` is a string with a non-blank
      character. */
  predicate HasEmail(req: Request)
  {
    req.email.Present? && !AllSpace(req.email.value)
  }

  /** The selected template source is named and can be read. */
  predicate TemplateAvailable(req: Request, env: Env)
  {
    if req.useImageUrl then FieldTruthy(req.templateImageUrl) && env.fetched.Some?
    else FieldTruthy(req.templateImagePath) && env.local.Readable?
  }

  /** The checks `generate_ticket` makes before it issues anything, in
      order: the e-mail address, then the template chosen by
      `use_image_url`. A `null` e-mail makes `.strip()` raise, and so does
      `Image.open` on an existing path it cannot read. */
  function Validate(req: Request, env: Env): (r: Result<Dims, Response>)
    ensures r.Success? <==> HasEmail(req) && TemplateAvailable(req, env)
    ensures !HasEmail(req) ==> r == Failure(if req.email.Null? then ServerError else BadRequest(MissingEmail))
    ensures HasEmail(req) && req.useImageUrl && !FieldTruthy(req.templateImageUrl) ==> r == Failure(BadRequest(MissingUrl))
    ensures HasEmail(req) && !req.useImageUrl && !FieldTruthy(req.templateImagePath) ==> r == Failure(BadRequest(MissingPath))
    ensures r.Failure? ==> r.error.BadRequest? || r.error.ServerError?
    ensures HasEmail(req) && req.useImageUrl && FieldTruthy(req.templateImageUrl) && env.fetched.None? ==>
      r == Failure(BadRequest(DownloadFailed))
    ensures HasEmail(req) && !req.useImageUrl && FieldTruthy(req.templateImagePath) && env.local.NoFile? ==>
      r == Failure(BadRequest(TemplateNotFound(req.templateImagePath.value)))
    ensures HasEmail(req) && !req.useImageUrl && FieldTruthy(req.templateImagePath) && env.local.Unreadable? ==>
      r == Failure(ServerError)
    ensures r.Success? ==> r.value == if req.useImageUrl then env.fetched.value else env.local.dims
  {
    if req.email.Absent? then Failure(BadRequest(MissingEmail))
    else if req.email.Null? then Failure(ServerError)
    else if Strip(req.email.value) == [] then
      StripEmptyIffAllSpace(req.email.value);
      Failure(BadRequest(MissingEmail))
    else
      StripEmptyIffAllSpace(req.email.value);
      if req.useImageUrl then
        if !FieldTruthy(req.templateImageUrl) then Failure(BadRequest(MissingUrl))
        else if env.fetched.None? then Failure(BadRequest(DownloadFailed))
        else Success(env.fetched.value)
      else
        if !FieldTruthy(req.templateImagePath) then Failure(BadRequest(MissingPath))
        else if env.local.NoFile? then Failure(BadRequest(TemplateNotFound(req.templateImagePath.value)))
        else if env.local.Unreadable? then Failure(ServerError)
        else Success(env.local.dims)
  }

  /** `mail_credentials.get("email_user", DEFAULT_EMAIL_USER)`. */
  function EmailUser(req: Request, env: Env): Option<String>
  {
    if req.mailCredentials.Present? then GetOr(req.mailCredentials.value.emailUser, env.defaultUser) else env.defaultUser
  }

  /** `mail_credentials.get("email_password", DEFAULT_EMAIL_PASSWORD)`. */
  function EmailPassword(req: Request, env: Env): Option<String>
  {
    if req.mailCredentials.Present? then GetOr(req.mailCredentials.value.emailPassword, env.defaultPassword) else env.defaultPassword
  }

  /** An e-mail is attempted only when it is requested and both credentials
      are non-empty. A credential key the request supplies is used as it
      is, even when empty or `null`; a missing one falls back to the
      default. */
  function MailAttempted(req: Request, env: Env): (b: bool)
    ensures b <==>
      && req.sendEmail
      && (if req.mailCredentials.Present? && !req.mailCredentials.value.emailUser.Absent?
          then req.mailCredentials.value.emailUser.Present? && |req.mailCredentials.value.emailUser.value| > 0
          else Truthy(env.defaultUser))
      && (if req.mailCredentials.Present? && !req.mailCredentials.value.emailPassword.Absent?
          then req.mailCredentials.value.emailPassword.Present? && |req.mailCredentials.value.emailPassword.value| > 0
          else Truthy(env.defaultPassword))
    ensures !req.sendEmail ==> !b
    ensures req.mailCredentials.Absent? ==> (b <==> req.sendEmail && Truthy(env.defaultUser) && Truthy(env.defaultPassword))
    ensures req.mailCredentials.Present? && req.mailCredentials.value.emailUser in {Null, Present([])} ==> !b
    ensures req.mailCredentials.Present? && req.mailCredentials.value.emailPassword in {Null, Present([])} ==> !b
  {
    req.sendEmail && Truthy(EmailUser(req, env)) && Truthy(EmailPassword(req, env))
  }

  lemma CredentialsFallback(req: Request, env: Env)
    ensures (req.mailCredentials.Absent? || (req.mailCredentials.Present? && req.mailCredentials.value.emailUser.Absent?)) ==>
      EmailUser(req, env) == env.defaultUser
    ensures (req.mailCredentials.Present? && req.mailCredentials.value.emailUser.Present?) ==>
      EmailUser(req, env) == Some(req.mailCredentials.value.emailUser.value)
    ensures (req.mailCredentials.Absent? || (req.mailCredentials.Present? && req.mailCredentials.value.emailPassword.Absent?)) ==>
      EmailPassword(req, env) == env.defaultPassword
    ensures (req.mailCredentials.Present? && req.mailCredentials.value.emailPassword.Present?) ==>
      EmailPassword(req, env) == Some(req.mailCredentials.value.emailPassword.value)
  {
  }

  const SentPrefix: String := "Email sent to "
  const FailedPrefix: String := "Failed to send email to "

  /** The status string `send_email_with_attachment` returns: it names the
      recipient after a prefix that tells delivery from failure, and ends
      with the attachment path or the exception text. */
  function SendStatus(outcome: MailOutcome, recipient: String, attachment: String): (s: String)
    ensures s != NotSent
    ensures outcome.Delivered? ==>
      |s| > |SentPrefix| + |recipient| + |attachment| &&
      s[..|SentPrefix| + |recipient|] == SentPrefix + recipient && s[|s| - |attachment|..] == attachment
    ensures outcome.Failed? ==>
      |s| > |FailedPrefix| + |recipient| + |outcome.reason| &&
      s[..|FailedPrefix| + |recipient|] == FailedPrefix + recipient && s[|s| - |outcome.reason|..] == outcome.reason
  {
    match outcome
    case Delivered =>
      var s := SentPrefix + recipient + " with attachment " + attachment;
      assert s[0] != NotSent[0];
      assert s[..|SentPrefix| + |recipient|] == SentPrefix + recipient;
      s
    case Failed(reason) =>
      var s := FailedPrefix + recipient + ": " + reason;
      assert s[0] != NotSent[0];
      assert s[..|FailedPrefix| + |recipient|] == FailedPrefix + recipient;
      s
  }

  /** `email_status` in the response. */
  function EmailStatus(req: Request, env: Env, recipient: String, attachment: String): (s: String)
    ensures !MailAttempted(req, env) ==> s == NotSent
    ensures MailAttempted(req, env) ==> s != NotSent && s == SendStatus(env.mail, recipient, attachment)
  {
    if MailAttempted(req, env) then SendStatus(env.mail, recipient, attachment) else NotSent
  }

  const GeneratedRoute: String := "/generated/"

  /** `url_for('serve_generated_ticket', filename=basename(path), _external=True)`:
      the service root, the route, then the file's base name, which holds
      no further slash. */
  function TicketUrl(root: String, path: String): (u: String)
    ensures |root| + |GeneratedRoute| <= |u| <= |root| + |GeneratedRoute| + |path|
    ensures u[..|root| + |GeneratedRoute|] == root + GeneratedRoute
    ensures Slash !in u[|root| + |GeneratedRoute|..]
    ensures u[|root| + |GeneratedRoute|..] == path[|path| - (|u| - |root| - |GeneratedRoute|)..]
    ensures |u| - |root| - |GeneratedRoute| == |path| || path[|path| - (|u| - |root| - |GeneratedRoute|) - 1] == Slash
  {
    var u := root + GeneratedRoute + BaseName(path);
    assert u[..|root| + |GeneratedRoute|] == root + GeneratedRoute;
    assert u[|root| + |GeneratedRoute|..] == BaseName(path);
    u
  }

  /** The 200 reply for ticket number `n` on a template of size `loaded`. */
  function IssuedReply(req: Request, env: Env, loaded: Dims, n: String): (r: Response)
    requires req.email.Present?
    requires req.ticketDetails.Some? ==> DistinctKeys(req.ticketDetails.value)
    ensures r.Issued?
    ensures var path := ComposeTicket(loaded, req.imageSize, req.qrConfig, req.ticketDetails, n, env.rotated).outputPath;
      && r.ticketNumber == n
      && r.email == Strip(req.email.value)
      && r.qrData == LowerKeys(WithTicketNumber(req.ticketDetails, n))
      && (NoTicketNumberAlias(req.ticketDetails) ==> Get(r.qrData, TicketNumberKey) == Some(Str(n)))
      && r.ticketUrl == TicketUrl(env.urlRoot, path)
      && (r.emailStatus == NotSent <==> !MailAttempted(req, env))
      && (MailAttempted(req, env) ==> r.emailStatus == SendStatus(env.mail, r.email, path))
  {
    var b := ComposeTicket(loaded, req.imageSize, req.qrConfig, req.ticketDetails, n, env.rotated);
    QrDataReportsTicketNumber(req.ticketDetails, n);
    var email := Strip(req.email.value);
    Issued(email, EmailStatus(req, env, email, b.outputPath), b.qrData, n, TicketUrl(env.urlRoot, b.outputPath))
  }

  /** The handler once the random draw is known: `draw` is the number the
      generator returns, `None` when it never returns. The second component
      is the key file afterwards. An imaging failure raises before the key
      is saved; a non-object `mail_credentials` raises only after the
      ticket image and its key were saved. */
  function Respond(req: Request, env: Env, draw: Option<String>): (out: (Response, KF.KeyFile))
    requires req.ticketDetails.Some? ==> DistinctKeys(req.ticketDetails.value)
    ensures Validate(req, env).Failure? || draw.None? || !env.imaging.Renders? ==> out.1 == env.keyFile
    ensures Validate(req, env).Failure? ==> out.0 == Validate(req, env).error
    ensures Validate(req, env).Success? && env.imaging.TemplateResizeFails? ==> out.0 == ServerError
    ensures Validate(req, env).Success? && !env.imaging.TemplateResizeFails? && draw.None? ==> out.0 == NoResponse
    ensures Validate(req, env).Success? && draw.Some? && env.imaging.QrFails? ==> out.0 == ServerError
    ensures Validate(req, env).Success? && draw.Some? && env.imaging.Renders? ==>
      KF.LoadKeys(out.1) == KF.LoadKeys(env.keyFile) + {draw.value}
    ensures Validate(req, env).Success? && draw.Some? && env.imaging.Renders? && req.mailCredentials.Null? ==>
      out.0 == ServerError
    ensures out.0.Issued? <==>
      Validate(req, env).Success? && draw.Some? && env.imaging.Renders? && !req.mailCredentials.Null?
    ensures out.0.Issued? ==> out.0 == IssuedReply(req, env, Validate(req, env).value, draw.value)
  {
    var v := Validate(req, env);
    if v.Failure? then (v.error, env.keyFile)
    else if env.imaging.TemplateResizeFails? then (ServerError, env.keyFile)
    else if draw.None? then (NoResponse, env.keyFile)
    else if env.imaging.QrFails? then (ServerError, env.keyFile)
    else
      var saved := KF.SaveKey(env.keyFile, draw.value, env.timestamp);
      KF.SaveThenLoad(env.keyFile, draw.value, env.timestamp);
      if req.mailCredentials.Null? then (ServerError, saved)
      else (IssuedReply(req, env, v.value, draw.value), saved)
  }

  /** What a 200 reply of the handler carries: the drawn number, the
      stripped e-mail, the lower-cased details (reporting the number unless
      a caller key aliases it), the download URL of the output file, and
      `Not sent` or the mailer's report for this recipient and file. */
  lemma RespondIssued(req: Request, env: Env, draw: Option<String>)
    requires req.ticketDetails.Some? ==> DistinctKeys(req.ticketDetails.value)
    ensures var out := Respond(req, env, draw);
      out.0.Issued? ==>
      var path := ComposeTicket(Validate(req, env).value, req.imageSize, req.qrConfig, req.ticketDetails, draw.value, env.rotated).outputPath;
      && out.0.ticketNumber == draw.value
      && out.0.email == Strip(req.email.value)
      && out.0.qrData == LowerKeys(WithTicketNumber(req.ticketDetails, draw.value))
      && (NoTicketNumberAlias(req.ticketDetails) ==> Get(out.0.qrData, TicketNumberKey) == Some(Str(draw.value)))
      && out.0.ticketUrl == TicketUrl(env.urlRoot, path)
      && (out.0.emailStatus == NotSent <==> !MailAttempted(req, env))
      && (MailAttempted(req, env) ==> out.0.emailStatus == SendStatus(env.mail, out.0.email, path))
  {
  }

  /** A failed send only changes the status text: the reply is still a 200
      with the same ticket number, response map and URL, and the key file
      is the same as after a successful send. */
  lemma MailFailureKeepsTicket(req: Request, env: Env, draw: Option<String>, reason: String)
    requires req.ticketDetails.Some? ==> DistinctKeys(req.ticketDetails.value)
    ensures var ok := Respond(req, env.(mail := Delivered), draw);
      var failed := Respond(req, env.(mail := Failed(reason)), draw);
      && failed.1 == ok.1
      && (failed.0.Issued? <==> ok.0.Issued?)
      && (ok.0.Issued? ==>
            && failed.0.ticketNumber == ok.0.ticketNumber
            && failed.0.qrData == ok.0.qrData
            && failed.0.ticketUrl == ok.0.ticketUrl
            && failed.0.email == ok.0.email)
  {
    var envOk := env.(mail := Delivered);
    var envFailed := env.(mail := Failed(reason));
    assert Validate(req, envOk) == Validate(req, envFailed);
  }

  /** `generate_ticket`: validate, load the known keys, draw a fresh number,
      build the ticket, save the key, and reply. `drawn` is the number the
      generator returned, if it was reached and returned. A valid request
      with a free number is answered with a 200 unless the imaging
      libraries raise or `mail_credentials` is not an object; every
      validation error leaves the key file untouched. */
  method GenerateTicket(req: Request, env: Env) returns (resp: Response, keyFile': KF.KeyFile, drawn: Option<String>)
    requires req.ticketDetails.Some? ==> DistinctKeys(req.ticketDetails.value)
    ensures Validate(req, env).Failure? ==> resp == Validate(req, env).error && keyFile' == env.keyFile
    ensures drawn.Some? <==>
      Validate(req, env).Success? && !env.imaging.TemplateResizeFails? && HasFreeNumber(KF.LoadKeys(env.keyFile))
    ensures resp.NoResponse? <==>
      Validate(req, env).Success? && !env.imaging.TemplateResizeFails? && !HasFreeNumber(KF.LoadKeys(env.keyFile))
    ensures resp.Issued? <==>
      && Validate(req, env).Success? && HasFreeNumber(KF.LoadKeys(env.keyFile))
      && env.imaging.Renders? && !req.mailCredentials.Null?
    ensures drawn.None? || !env.imaging.Renders? ==> keyFile' == env.keyFile
    ensures drawn.Some? ==>
      && IsTicketNumber(drawn.value)
      && drawn.value !in KF.LoadKeys(env.keyFile)
      && (resp, keyFile') == Respond(req, env, drawn)
      && (env.imaging.Renders? ==> KF.LoadKeys(keyFile') == KF.LoadKeys(env.keyFile) + {drawn.value})
    ensures resp.Issued? ==> drawn == Some(resp.ticketNumber)
    ensures (resp, keyFile') == Respond(req, env, drawn)
  {
    var v := Validate(req, env);
    if v.Failure? {
      return v.error, env.keyFile, None;
    }
    if env.imaging.TemplateResizeFails? {
      return ServerError, env.keyFile, None;
    }
    var existing := KF.LoadKeys(env.keyFile);
    drawn := GenerateUnique(existing);
    var out := Respond(req, env, drawn);
    resp, keyFile' := out.0, out.1;
  }
}

=== FILE: ticket_number.dfy ===
/** Ticket numbers: eight symbols drawn from `string.ascii_uppercase +
    string.digits`, and the retry-until-unused generator of api.py.

    A random draw of eight symbols is modelled as the choice of an index
    `k` below 36^8, turned into a string by `Encode` (base 36, most
    significant symbol first). `Encode` and `Decode` are proved to be
    inverse bijections, so choosing an index is the same as choosing a
    string. */
module TicketNumber {

  import opened Text
  import opened Json

  /** Number of symbols in a ticket number (`k=8`). */
  const Length: nat := 8

  /** Size of the alphabet (26 letters and 10 digits). */
  const Base: nat := 36

  function Pow(b: nat, e: nat): (p: nat)
    ensures b > 0 ==> p > 0
  {
    if e == 0 then 1 else b * Pow(b, e - 1)
  }

  /** How many distinct ticket numbers exist: 36^8. */
  const Capacity: nat := Pow(Base, Length)

  /** The symbol with index `d` in `ascii_uppercase + digits`. */
  function Symbol(d: nat): (c: char)
    requires d < Base
  {
    if d < 26 then ('A' as int + d) as char else ('0' as int + d - 26) as char
  }

  /** The alphabet, in the order Python concatenates it. */
  const Alphabet: String := seq(Base, d requires 0 <= d < Base => Symbol(d))

  predicate InAlphabet(c: char)
  {
    'A' <= c <= 'Z' || '0' <= c <= '9'
  }

  /** Index of an alphabet symbol; the inverse of `Symbol`. */
  function SymbolIndex(c: char): (d: nat)
    requires InAlphabet(c)
    ensures d < Base && Symbol(d) == c
  {
    if 'A' <= c <= 'Z' then c as int - 'A' as int else 26 + (c as int - '0' as int)
  }

  lemma SymbolRoundTrip(d: nat)
    requires d < Base
    ensures InAlphabet(Symbol(d)) && SymbolIndex(Symbol(d)) == d
  {
  }

  /** The alphabet is exactly `ABCDEFGHIJKLMNOPQRSTUVWXYZ0123456789`:
      the upper-case ASCII letters, then the digits. */
  lemma AlphabetContents()
    ensures Alphabet == "ABCDEFGHIJKLMNOPQRSTUVWXYZ0123456789"
  {
    AlphabetLetters();
    AlphabetDigits();
    assert Alphabet == Alphabet[..26] + Alphabet[26..];
  }

  lemma AlphabetLetters()
    ensures Alphabet[..26] == "ABCDEFGHIJKLMNOPQRSTUVWXYZ"
  {
    var letters := "ABCDEFGHIJKLMNOPQRSTUVWXYZ";
    forall d | 0 <= d < 26 ensures Alphabet[d] == letters[d] {
      assert letters[d] == ('A' as int + d) as char;
    }
  }

  lemma AlphabetDigits()
    ensures Alphabet[26..] == "0123456789"
  {
    var digits := "0123456789";
    forall d | 0 <= d < 10 ensures Alphabet[26 + d] == digits[d] {
      assert digits[d] == ('0' as int + d) as char;
    }
  }

  /** A character is one of the alphabet's symbols iff it is an upper-case
      ASCII letter or a digit. */
  lemma AlphabetMembership(c: char)
    ensures c in Alphabet <==> InAlphabet(c)
  {
    if InAlphabet(c) {
      assert Alphabet[SymbolIndex(c)] == c;
    }
  }

  /** A well-formed ticket number: eight symbols of the alphabet. */
  predicate IsTicketNumber(s: String)
  {
    |s| == Length && forall i :: 0 <= i < |s| ==> InAlphabet(s[i])
  }

  /** The `len` base-36 digits of `k` (taken modulo 36^len). */
  function Encode(k: nat, len: nat): (s: String)
    ensures |s| == len
    ensures forall i :: 0 <= i < |s| ==> InAlphabet(s[i])
  {
    if len == 0 then []
    else Encode(k / Base, len - 1) + [Symbol(k % Base)]
  }

  /** The number a string of alphabet symbols spells in base 36. */
  function Decode(s: String): (k: nat)
    requires forall i :: 0 <= i < |s| ==> InAlphabet(s[i])
    ensures k < Pow(Base, |s|)
  {
    if |s| == 0 then 0
    else
      var high := Decode(s[..|s| - 1]);
      var low := SymbolIndex(s[|s| - 1]);
      assert high * Base + low < Pow(Base, |s|) by {
        assert high + 1 <= Pow(Base, |s| - 1);
        assert (high + 1) * Base <= Pow(Base, |s| - 1) * Base;
      }
      high * Base + low
  }

  /** Decoding an encoding gives the index back. */
  lemma {:induction false} DecodeEncode(k: nat, len: nat)
    requires k < Pow(Base, len)
    ensures Decode(Encode(k, len)) == k
  {
    if len > 0 {
      var high := Encode(k / Base, len - 1);
      var s := high + [Symbol(k % Base)];
      assert s[..|s| - 1] == high;
      assert k / Base < Pow(Base, len - 1);
      DecodeEncode(k / Base, len - 1);
      SymbolRoundTrip(k % Base);
    }
  }

  /** Encoding a decoding gives the string back. */
  lemma {:induction false} EncodeDecode(s: String)
    requires forall i :: 0 <= i < |s| ==> InAlphabet(s[i])
    ensures Encode(Decode(s), |s|) == s
  {
    if |s| > 0 {
      var init := s[..|s| - 1];
      var high := Decode(init);
      var low := SymbolIndex(s[|s| - 1]);
      var k := high * Base + low;
      assert k / Base == high && k % Base == low;
      EncodeDecode(init);
      assert s == init + [s[|s| - 1]];
    }
  }

  /** Every index below the capacity encodes a well-formed ticket number,
      and every well-formed ticket number is the encoding of one. */
  lemma EncodingIsOnto(n: String)
    ensures IsTicketNumber(n) <==> exists k :: 0 <= k < Capacity && Encode(k, Length) == n
  {
    if IsTicketNumber(n) {
      EncodeDecode(n);
    }
  }

  /** At least one well-formed ticket number is not among `keys`; the
      retry loop of `generate_unique_ticket_number` ends exactly then. */
  predicate HasFreeNumber(keys: set<String>)
  {
    exists k :: 0 <= k < Capacity && Encode(k, Length) !in keys
  }

  lemma HasFreeNumberMeaning(keys: set<String>)
    ensures HasFreeNumber(keys) <==> exists n :: IsTicketNumber(n) && n !in keys
  {
    if n :| IsTicketNumber(n) && n !in keys {
      EncodingIsOnto(n);
    }
  }

  /** If the first `count` encodings all lie in `keys`, `keys` has at least
      `count` members (the encodings are pairwise distinct). */
  lemma {:induction false} EncodingsFillKeys(keys: set<String>, count: nat)
    requires count <= Capacity
    requires forall k :: 0 <= k < count ==> Encode(k, Length) in keys
    ensures count <= |keys|
  {
    if count > 0 {
      var last := Encode(count - 1, Length);
      var rest := keys - {last};
      forall k | 0 <= k < count - 1
        ensures Encode(k, Length) in rest
      {
        DecodeEncode(k, Length);
        DecodeEncode(count - 1, Length);
      }
      EncodingsFillKeys(rest, count - 1);
    }
  }

  /** Pigeonhole: while fewer than 36^8 keys are known, a free ticket
      number exists, so the retry loop terminates. */
  lemma FreeNumberWhileNotFull(keys: set<String>)
    requires |keys| < Capacity
    ensures HasFreeNumber(keys)
  {
    if !HasFreeNumber(keys) {
      EncodingsFillKeys(keys, |keys| + 1);
    }
  }

  /** `generate_unique_ticket_number(existing_keys)`: a well-formed ticket
      number that is not among the known keys. Each random draw is a
      nondeterministic choice; draws that collide leave no trace, so the
      loop is modelled by its first successful draw. `None` stands for the
      case in which every number is taken and the source loops forever. */
  method GenerateUnique(existing: set<String>) returns (r: Option<String>)
    ensures r.Some? <==> HasFreeNumber(existing)
    ensures r.Some? ==> IsTicketNumber(r.value) && r.value !in existing
  {
    if HasFreeNumber(existing) {
      var k :| 0 <= k < Capacity && Encode(k, Length) !in existing;
      r := Some(Encode(k, Length));
    } else {
      r := None;
    }
  }

  /** main.py's draw: eight random symbols, with no check against earlier
      numbers. */
  method Draw() returns (n: String)
    ensures IsTicketNumber(n)
  {
    var k :| 0 <= k < Capacity;
    n := Encode(k, Length);
  }
}

=== FILE: ticket_qr.dfy ===
/** `generate_ticket_qr` of api.py with its image work taken out: merge the
    fresh ticket number into the details, build the QR payload, resolve
    the QR settings and position, name the output file, record the key
    and lower-case the details for the response. */
module TicketQr {

  import opened Text
  import opened Json
  import opened Details
  import opened Payload
  import opened QrConfig
  import opened Placement
  import opened TicketNumber
  import KF = KeyFile

  /** The key under which the ticket number is stored in the details. */
  const TicketNumberKey: String := "ticket_number"

  /** The directory generated tickets are written to. */
  const OutputFolder: String := "Qr_Generated"

  const Slash: char := '/'

  /** The caller's details, `{}` when none were given. */
  function GivenDetails(details: Option<Details>): Details
  {
    if details.Some? then details.value else []
  }

  /** `ticket_details["ticket_number"] = ticket_number`, starting from `{}`
      when no details were given. A caller-supplied value is overwritten in
      its original position, or else the key is appended last; every other
      entry stays where and what it was. */
  function WithTicketNumber(details: Option<Details>, n: String): (d: Details)
    requires details.Some? ==> DistinctKeys(details.value)
    ensures DistinctKeys(d)
    ensures Get(d, TicketNumberKey) == Some(Str(n))
    ensures TicketNumberKey in Keys(GivenDetails(details)) ==>
      |d| == |GivenDetails(details)| &&
      forall i :: 0 <= i < |d| && GivenDetails(details)[i].key != TicketNumberKey ==> d[i] == GivenDetails(details)[i]
    ensures TicketNumberKey !in Keys(GivenDetails(details)) ==>
      d == GivenDetails(details) + [Entry(TicketNumberKey, Str(n))]
  {
    PutThenGetSame(GivenDetails(details), TicketNumberKey, Str(n));
    Put(GivenDetails(details), TicketNumberKey, Str(n))
  }

  /** Merging the ticket number leaves every other key reading as before. */
  lemma WithTicketNumberKeepsOthers(details: Option<Details>, n: String, other: String)
    requires details.Some? ==> DistinctKeys(details.value)
    requires other != TicketNumberKey
    ensures Get(WithTicketNumber(details, n), other) == Get(GivenDetails(details), other)
  {
    PutThenGetOther(GivenDetails(details), TicketNumberKey, Str(n), other);
  }

  /** The text substituted for `ticket_details.get(key, default)` in an
      f-string. */
  function FieldText(d: Details, key: String, default: String): String
  {
    var v := Get(d, key);
    if v.Some? then Render(v.value) else default
  }

  const Underscore: char := '_'

  const PngSuffix: String := ".png"

  /** The event part of the file name. */
  function EventText(d: Details): String
  {
    FieldText(d, "event", "EVENT")
  }

  /** `f"{event}_{roll_no}_{ticket_number}.png"`, with `EVENT` and
      `UNKNOWN` standing in for a missing event or roll number. */
  function FileName(d: Details, n: String): (name: String)
    ensures |name| >= |EventText(d)| + |n| + |PngSuffix| + 2
    ensures name[..|EventText(d)| + 1] == EventText(d) + [Underscore]
    ensures name[|name| - |n| - |PngSuffix| - 1..] == [Underscore] + n + PngSuffix
    ensures name[|EventText(d)| + 1..|name| - |n| - |PngSuffix| - 1] == FieldText(d, "roll_no", "UNKNOWN")
  {
    var head := EventText(d) + [Underscore];
    var tail := [Underscore] + n + PngSuffix;
    var name := head + FieldText(d, "roll_no", "UNKNOWN") + tail;
    assert name[..|head|] == head;
    assert name[|name| - |tail|..] == tail;
    assert name[|head|..|name| - |tail|] == FieldText(d, "roll_no", "UNKNOWN");
    name
  }

  /** Reads the ticket number back out of a generated file name. */
  function TicketNumberOfFileName(name: String): Option<String>
  {
    var k := |PngSuffix|;
    if |name| >= Length + k + 1 && name[|name| - k..] == PngSuffix && name[|name| - Length - k - 1] == Underscore
    then Some(name[|name| - Length - k..|name| - k])
    else None
  }

  /** Any name ending in `_` + a ticket number + `.png` yields that number. */
  lemma TicketNumberOfSuffix(name: String, n: String)
    requires IsTicketNumber(n)
    requires |name| > |n| + |PngSuffix|
    requires name[|name| - |n| - |PngSuffix| - 1..] == [Underscore] + n + PngSuffix
    ensures TicketNumberOfFileName(name) == Some(n)
  {
    var k := |PngSuffix|;
    var tail := name[|name| - |n| - k - 1..];
    assert name[|name| - k..] == tail[|tail| - k..] == PngSuffix;
    assert name[|name| - Length - k - 1] == tail[0] == Underscore;
    assert name[|name| - Length - k..|name| - k] == tail[1..|tail| - k] == n;
  }

  /** The file name determines the ticket number it was made for. */
  lemma FileNameRoundTrip(d: Details, n: String)
    requires IsTicketNumber(n)
    ensures TicketNumberOfFileName(FileName(d, n)) == Some(n)
  {
    TicketNumberOfSuffix(FileName(d, n), n);
  }

  /** `os.path.join(folder, name)` on POSIX: an absolute `name` discards the
      folder, and a slash is put between the two only when the folder is
      non-empty and does not already end in one. */
  function PathJoin(folder: String, name: String): (p: String)
    ensures |p| >= |name| && p[|p| - |name|..] == name
    ensures name != [] && name[0] == Slash ==> p == name
    ensures (name == [] || name[0] != Slash) ==> |p| >= |folder| && p[..|folder|] == folder
    ensures (name == [] || name[0] != Slash) && folder != [] ==> |p| > |name| && p[|p| - |name| - 1] == Slash
    ensures (name == [] || name[0] != Slash) ==> |p| <= |folder| + 1 + |name|
  {
    if |name| > 0 && name[0] == Slash then name
    else if folder == [] || folder[|folder| - 1] == Slash then
      var p := folder + name;
      assert p[|p| - |name|..] == name;
      assert p[..|folder|] == folder;
      p
    else
      var p := folder + [Slash] + name;
      assert p[|p| - |name|..] == name;
      assert p[..|folder|] == folder;
      p
  }

  /** `os.path.basename(path)`: what follows the last slash. */
  function BaseName(path: String): (b: String)
    ensures Slash !in b
    ensures |b| <= |path| && b == path[|path| - |b|..]
    ensures |b| == |path| || path[|path| - |b| - 1] == Slash
    decreases |path|
  {
    if Slash !in path then path
    else
      var i := IndexOf(path, Slash);
      BaseName(path[i + 1..])
  }

  /** A file name without a slash is stored in the output folder and is
      what the download URL names. */
  lemma BaseNameOfOutputPath(name: String)
    requires Slash !in name
    ensures BaseName(PathJoin(OutputFolder, name)) == name
  {
    var p := OutputFolder + [Slash] + name;
    assert Slash !in OutputFolder;
    assert IndexOf(p, Slash) == |OutputFolder| by {
      assert p[|OutputFolder|] == Slash;
      assert p[..|OutputFolder|] == OutputFolder;
    }
    assert p[|OutputFolder| + 1..] == name;
  }

  lemma LowerTicketNumberKey()
    ensures Lower(TicketNumberKey) == TicketNumberKey
  {
  }

  /** No key of the caller's other than `ticket_number` itself lower-cases
      to `ticket_number`. */
  predicate NoTicketNumberAlias(details: Option<Details>)
  {
    forall i :: 0 <= i < |GivenDetails(details)| && GivenDetails(details)[i].key != TicketNumberKey ==>
      Lower(GivenDetails(details)[i].key) != TicketNumberKey
  }

  /** Without such an alias the lower-cased response map reports the
      generated number under `ticket_number`. */
  lemma QrDataReportsTicketNumber(details: Option<Details>, n: String)
    requires details.Some? ==> DistinctKeys(details.value)
    ensures NoTicketNumberAlias(details) ==> Get(LowerKeys(WithTicketNumber(details, n)), TicketNumberKey) == Some(Str(n))
  {
    if !NoTicketNumberAlias(details) { return; }
    var given := GivenDetails(details);
    var d := WithTicketNumber(details, n);
    var i :| 0 <= i < |d| && d[i] == Entry(TicketNumberKey, Str(n));
    LowerTicketNumberKey();
    if TicketNumberKey in Keys(given) {
      assert given[i].key == TicketNumberKey;
      forall j | i < j < |d| ensures Lower(d[j].key) != TicketNumberKey {
        assert given[j].key != TicketNumberKey;
        assert d[j] == given[j];
      }
    } else {
      assert i == |given|;
    }
    LowerKeysLastWins(d, i);
  }

  /** A caller key such as `TICKET_NUMBER` is such an alias: when it comes
      after `ticket_number` its value replaces the generated number in the
      response map. */
  lemma AliasOverridesResponse(n: String)
    requires n != "X"
    ensures var d := WithTicketNumber(Some([Entry(TicketNumberKey, Str("X")), Entry(AliasKey, Str("X"))]), n);
      Get(LowerKeys(d), TicketNumberKey) == Some(Str("X"))
  {
    var given := [Entry(TicketNumberKey, Str("X")), Entry(AliasKey, Str("X"))];
    var d := WithTicketNumber(Some(given), n);
    assert Keys(given)[0] == TicketNumberKey;
    assert |d| == 2 && d[1] == given[1];
    LowerAliasKey();
    LowerKeysLastWins(d, 1);
  }

  /** The same alias also puts a second `TICKET_NUMBER:` line, carrying the
      caller's value, into the QR payload. */
  lemma AliasDuplicatesPayloadLine(n: String)
    ensures var d := WithTicketNumber(Some([Entry(TicketNumberKey, Str("X")), Entry(AliasKey, Str("X"))]), n);
      Lines(d) == [AliasKey + ": " + n, AliasKey + ": X"]
  {
    var given := [Entry(TicketNumberKey, Str("X")), Entry(AliasKey, Str("X"))];
    var d := WithTicketNumber(Some(given), n);
    assert Keys(given)[0] == TicketNumberKey;
    assert |d| == 2 && d[0].key == TicketNumberKey && d[1] == given[1];
    assert d[0] == Entry(TicketNumberKey, Str(n));
    UpperTicketNumberKey();
    assert Lines(d)[0] == AliasKey + ": " + n;
    assert Lines(d)[1] == AliasKey + ": X";
  }

  /** The upper-case spelling of the ticket-number key. */
  const AliasKey: String := "TICKET_NUMBER"

  lemma UpperTicketNumberKey()
    ensures Upper(TicketNumberKey) == AliasKey && Upper(AliasKey) == AliasKey
  {
  }

  lemma LowerAliasKey()
    ensures Lower(AliasKey) == TicketNumberKey
  {
    var l := Lower(AliasKey);
    forall i | 0 <= i < |AliasKey| ensures l[i] == TicketNumberKey[i] {
    }
  }

  /** When keys do not collide once lower-cased, the response map is the
      details with every key lower-cased, in the same order. */
  lemma QrDataIsLowerCasedDetails(details: Option<Details>, n: String)
    requires details.Some? ==> DistinctKeys(details.value)
    requires LowerDistinct(WithTicketNumber(details, n))
    ensures |LowerKeys(WithTicketNumber(details, n))| == |WithTicketNumber(details, n)|
    ensures forall i :: 0 <= i < |WithTicketNumber(details, n)| ==>
      LowerKeys(WithTicketNumber(details, n))[i] == Entry(Lower(WithTicketNumber(details, n)[i].key), WithTicketNumber(details, n)[i].value)
  {
    LowerKeysPointwise(WithTicketNumber(details, n));
  }

  /** Everything `generate_ticket_qr` computes once the ticket number is
      known. */
  datatype TicketBuild = TicketBuild(
    ticketNumber: String,
    details: Details,
    payload: String,
    settings: QrSettings,
    position: Point,
    outputPath: String,
    qrData: Details)

  /** The pure part of `generate_ticket_qr` for a given ticket number `n`;
      `loaded` is the template's size and `rotated` the size the imaging
      library gives a rotated QR image. */
  function ComposeTicket(loaded: Dims, imageSize: Option<SizeDict>, qrConfig: Option<ConfigDict>,
                         details: Option<Details>, n: String, rotated: Dims): (b: TicketBuild)
    requires details.Some? ==> DistinctKeys(details.value)
    ensures b.ticketNumber == n
    ensures b.details == WithTicketNumber(details, n)
    ensures Get(b.details, TicketNumberKey) == Some(Str(n))
    ensures b.payload == QrPayload(b.details)
    ensures b.settings == Resolve(qrConfig)
    ensures b.settings.rotation == 0 ==>
      b.position.x + b.settings.size + b.settings.offsetX == TemplateDims(loaded, imageSize).width &&
      b.position.y + b.settings.size + b.settings.offsetY == TemplateDims(loaded, imageSize).height
    ensures b.settings.rotation != 0 ==>
      b.position.x + rotated.width + b.settings.offsetX == TemplateDims(loaded, imageSize).width &&
      b.position.y + rotated.height + b.settings.offsetY == TemplateDims(loaded, imageSize).height
    ensures b.position == PlaceQr(loaded, imageSize, b.settings, rotated)
    ensures b.outputPath == PathJoin(OutputFolder, FileName(b.details, n))
    ensures b.qrData == LowerKeys(b.details)
    ensures NoTicketNumberAlias(details) ==> Get(b.qrData, TicketNumberKey) == Some(Str(n))
  {
    var d := WithTicketNumber(details, n);
    var settings := Resolve(qrConfig);
    QrDataReportsTicketNumber(details, n);
    TicketBuild(n, d, QrPayload(d), settings, PlaceQr(loaded, imageSize, settings, rotated),
                PathJoin(OutputFolder, FileName(d, n)), LowerKeys(d))
  }

  /** `generate_ticket_qr`: draw a number not among `existing`, compose the
      ticket and append the number to the key file. `None` stands for the
      run that never returns because every number is taken; the key file is
      then untouched. This is the run in which the imaging libraries raise
      nothing; the handler's model `TicketApi.Respond` adds the failing
      runs. */
  method GenerateTicketQr(loaded: Dims, imageSize: Option<SizeDict>, qrConfig: Option<ConfigDict>,
                          details: Option<Details>, existing: set<String>, keyFile: KF.KeyFile,
                          timestamp: String, rotated: Dims)
    returns (r: Option<TicketBuild>, keyFile': KF.KeyFile)
    requires details.Some? ==> DistinctKeys(details.value)
    ensures r.Some? <==> HasFreeNumber(existing)
    ensures r.None? ==> keyFile' == keyFile
    ensures r.Some? ==>
      && IsTicketNumber(r.value.ticketNumber)
      && r.value.ticketNumber !in existing
      && r.value == ComposeTicket(loaded, imageSize, qrConfig, details, r.value.ticketNumber, rotated)
      && keyFile' == KF.SaveKey(keyFile, r.value.ticketNumber, timestamp)
      && KF.LoadKeys(keyFile') == KF.LoadKeys(keyFile) + {r.value.ticketNumber}
  {
    var n := GenerateUnique(existing);
    if n.None? {
      return None, keyFile;
    }
    r := Some(ComposeTicket(loaded, imageSize, qrConfig, details, n.value, rotated));
    keyFile' := KF.SaveKey(keyFile, n.value, timestamp);
    KF.SaveThenLoad(keyFile, n.value, timestamp);
  }
}
